=== FILE: README.md ===
# Spotly listing forms and route guard, in Dafny

Spotly is a Next.js marketplace for rentals, sales and venues. This project models its small pieces of
pure logic:

- the route guard in `middleware.ts`, which lets a request through or redirects it depending on the
  path and the signed-in user's role;
- the field logic of the vendor listing form, one step per file under `components/forms/`:
  - sanitisers for phone, pincode, title and description;
  - the "touched and empty" error predicates;
  - toggles on selected-id lists;
  - clamped room counters;
  - the photo list (capped append, remove, move);
  - price tiers and suggestion lists;
- the two listing cards, which render price tiers, truncated chip rows, badges and default links;
- the FAQ accordion on the landing page.

Every operation is a pure function over immutable values. Component state (`touched`, `openIndex`,
the error line) is passed in and returned. Event handlers are functions from the old state and an
event to the new state.

Each source file has its own module. Shared modules:

- `Wrappers` (`Option`);
- `Text` (ECMAScript whitespace, ASCII case mapping, digit filtering, trimming, slicing);
- `Selection` (the toggle shared by amenities and security);
- `Touched` (the blur record);
- `Money` (the crore / lakh / thousand tier choice shared by the price formatters);
- `CardParts` ("first N chips and +M more", label rewriting, the approval badge);
- `CharCount` (the minimum-length hint shared by title and description);
- `Listing` (rent or sale, and `parseFloat(...) || 0`).

The guard is written branch for branch as in the source. Its contract says it equals an independent
policy: classify the path into an area, decide whether the viewer may see it, and otherwise send the
viewer to their home page.

## Model

| member | source | states |
|---|---|---|
| Middleware.EffectiveRole | middleware.ts:18 | the role acted on is `user` when the metadata has no role; otherwise it is the metadata role with each upper-case ASCII letter replaced by its lower-case letter and every other character kept |
| Middleware.Guard | middleware.ts:11-45 | the guard's decision equals the reference policy: an anonymous visitor on a dashboard page goes to `/login`, a signed-in user on an auth page or outside their permitted area goes to their home, everything else passes |
| Middleware.AreaPrefixes | middleware.ts:5-9 | the admin, vendor and user areas are pairwise disjoint prefixes under `/dashboard`, and no login or signup path is a dashboard path |
| Middleware.AuthPagesRule | middleware.ts:16-22 | on a path starting with `/login` or `/signup`, a signed-in user is sent to `/dashboard/{role}` and an anonymous visitor passes |
| Middleware.AnonymousDashboardRule | middleware.ts:25-28 | without a user, every path starting with `/dashboard` redirects to `/login` |
| Middleware.RoleAreaRules | middleware.ts:30-41 | admin pages admit only `admin`; vendor pages admit `vendor` and `admin`; others go to `/dashboard/{role}`; an admin on a user page goes to `/dashboard/admin` |
| Middleware.PublicPathsPass | middleware.ts:44 | a path outside `/login`, `/signup` and `/dashboard` always passes |
| Middleware.HomeAreas | middleware.ts:19 | the home page of `admin`, `vendor` and `user` lies in that role's own area |
| Middleware.NoSecondRedirect | middleware.ts:19-41 | for roles `user`, `vendor` and `admin`, the target of every redirect passes on the next request |
| Middleware.AdminPrefixedRoleLoops | middleware.ts:30-34 | a role of lower-case letters and digits that starts with `admin` but is not `admin` is redirected from its own home page back to that same page |
| Middleware.AdministratorRedirectLoop | middleware.ts:18-19 | a user with metadata role `Administrator` is sent from `/login` to `/dashboard/administrator`, which redirects to itself |
| Middleware.ResolveRole | middleware.ts:30 | the closed role is `admin` or `vendor` exactly when the effective role is that string, and `user` otherwise |
| Middleware.GuardClosedRole | middleware.ts:11-45 | for the three known roles the closed-role guard decides exactly as the source does |
| Middleware.ClosedRoleNoSecondRedirect | middleware.ts:19-41 | with roles resolved to the closed set, no redirect target is redirected again, whatever the metadata holds |
| Text.ToLower | middleware.ts:18 | lower-casing keeps the length, maps each upper-case ASCII letter to its lower-case letter, leaves none behind, and keeps every other character |
| Text.ToUpper | components/forms/verification-step.tsx:201 | upper-casing maps each lower-case ASCII letter to its upper-case letter, leaves none behind, and keeps every other character (ASCII case mapping only) |
| Text.ToLowerFixesLowered | middleware.ts:30 | lower-casing a string with no upper-case letters returns it unchanged |
| Text.KeepDigits | components/forms/verification-step.tsx:118 | `replace(/\D/g, '')` keeps a digit, drops any other character, keeps only digits overall, and keeps an all-digit string as it is; with KeepDigitsAppend this fixes the result as the digits of the input in order |
| Text.KeepDigitsAppend | components/forms/location-step.tsx:126 | filtering digits distributes over concatenation |
| Text.Take | components/forms/title-step.tsx:48 | `slice(0, n)` gives a prefix of length at most `n`, the whole string when it is short enough, and exactly `n` characters otherwise |
| Text.SanitizeDigits | components/forms/location-step.tsx:126 | digits-then-truncate yields the first `min(n, digits typed)` digits of the input, in order |
| Text.SanitizeDigitsIdempotent | components/forms/verification-step.tsx:118 | sanitising an already sanitised value changes nothing |
| Text.TrimStart | components/forms/description-step.tsx:35 | the result is a suffix whose dropped part is whitespace and whose first character is not |
| Text.TrimEnd | components/forms/description-step.tsx:35 | the result is a prefix whose dropped part is whitespace and whose last character is not |
| Text.Trim | components/forms/description-step.tsx:35 | `trim()` is a slice of the input whose left and right remainders are all whitespace and whose own ends are not; it is empty exactly when the input is all whitespace |
| Text.TrimCutsOuterSpace | components/forms/description-step.tsx:35 | trimming keeps the slice between a whitespace-only start and a whitespace-only end |
| Text.Utf16Length | components/forms/title-step.tsx:27 | `s.length` counts UTF-16 code units: one for a single character of the Basic Multilingual Plane, two for one outside it, and never fewer than the characters |
| Text.Utf16LengthAppend | components/forms/title-step.tsx:27 | code-unit counts add up over concatenation, so with the one-character case every astral character counts two |
| Text.Utf16LengthWithoutAstral | components/forms/title-step.tsx:27 | without characters outside the Basic Multilingual Plane, the UTF-16 count equals the character count |
| Text.Utf16LengthWithAstral | components/forms/description-step.tsx:29 | one character outside the Basic Multilingual Plane makes the UTF-16 count exceed the character count |
| Selection.RemoveAll | components/forms/amenities-step.tsx:56-57 | filtering out an id removes every occurrence of it, keeps any other one-element list as it is, keeps every other id, and keeps a duplicate-free list duplicate-free |
| Selection.Toggle | components/forms/amenities-step.tsx:55-61 | toggling flips the membership of that id only, appends an absent id at the end, removes a present one exactly as `RemoveAll` does (the other ids keep their order), and keeps the list duplicate-free |
| Selection.ToggleTwiceRestores | components/forms/amenities-step.tsx:55-61 | toggling an absent id twice returns the original list |
| Selection.RemoveAllAppend | components/forms/amenities-step.tsx:56-57 | filtering distributes over concatenation, so with the one-element case the kept ids stay in their order |
| Selection.RemoveAllAppended | components/forms/security-step.tsx:71-77 | removing an id that was just appended to a list without it gives the list back |
| Touched.Blur | components/forms/verification-step.tsx:30-32 | blurring marks the field touched, never un-touches another field, and leaves every other field as it was |
| PhotosStep.KeptUrls | components/forms/photos-step.tsx:50-51 | `filter(Boolean)` keeps a single stored non-empty URL and drops a failed, thrown or empty one; with KeptUrlsAppend this fixes the result as the stored non-empty URLs in file order |
| PhotosStep.KeptUrlsAppend | components/forms/photos-step.tsx:51 | kept URLs of a batch are the kept URLs of its parts, in order |
| PhotosStep.Selected | components/forms/photos-step.tsx:35-41 | the considered files are the first `min(files, 10 - photos)` files, and none when 10 photos are already there |
| PhotosStep.Outcomes | components/forms/photos-step.tsx:50 | the outcomes of a batch are one per considered file, in file order |
| PhotosStep.HandleFiles | components/forms/photos-step.tsx:31-58 | the upload outcome of each considered file is given by its position in the batch; a missing or empty batch changes nothing; a full list sets "Maximum 10 photos allowed."; a non-image among the considered files sets "Only image files are allowed."; the list only ever grows by new non-empty URLs, clears the error when it grows, and stays within 10 |
| PhotosStep.ThrownUploadKeepsList | components/forms/photos-step.tsx:53-54 | one upload that throws leaves the list unchanged and sets "Upload failed. Please try again." |
| PhotosStep.UploadedBatchAppended | components/forms/photos-step.tsx:50-52 | otherwise the new list is the old list followed by the non-empty URLs in file order, with the error cleared |
| PhotosStep.FilesBeyondRoomIgnored | components/forms/photos-step.tsx:41-42 | files beyond the free room do not affect the outcome, even when they are not images |
| PhotosStep.AllStoredAppendsAll | components/forms/photos-step.tsx:50-52 | a batch of images that all upload is appended whole, each URL in its file's position |
| PhotosStep.TwoStoredImages | components/forms/photos-step.tsx:44-52 | two image files stored under two URLs are both appended, in order, to an empty list |
| PhotosStep.AllStoredKept | components/forms/photos-step.tsx:51 | when every upload stored a non-empty URL, all of them are kept in order |
| PhotosStep.RemoveImage | components/forms/photos-step.tsx:69-71 | removing index `i` deletes exactly that element and keeps the rest in order; an index out of range changes nothing |
| PhotosStep.SpliceStart | components/forms/photos-step.tsx:75-76 | a splice start inside the list is kept; a negative start counts back from the end and stops at 0; a start past the end becomes the end |
| PhotosStep.MoveImage | components/forms/photos-step.tsx:73-78 | moving keeps the length and the multiset of URLs, puts the moved URL at the target position, and keeps every other URL in its relative order |
| PhotosStep.ReinsertKeepsMultiset | components/forms/photos-step.tsx:75-76 | taking a photo out and inserting it back elsewhere keeps every photo |
| PhotosStep.MoveRightSwaps | components/forms/photos-step.tsx:182-184 | the "move right" button swaps a photo with its right neighbour |
| PhotosStep.MoveLeftSwaps | components/forms/photos-step.tsx:166-168 | the "move left" button swaps a photo with its left neighbour |
| PhotosStep.MoveRoundTrip | components/forms/photos-step.tsx:73-78 | moving from `i` to `j` and back restores the list |
| AmenitiesStep.CountBadge | components/forms/amenities-step.tsx:73-77 | the count badge is shown exactly when an amenity is selected, and it shows the number selected |
| AmenitiesStep.ClickFlipsOneButton | components/forms/amenities-step.tsx:91-96 | clicking one amenity button flips its highlight and no other button's |
| SecurityStep.WarningsOf | components/forms/security-step.tsx:79 | the warnings are exactly the selected items flagged with a warning |
| SecurityStep.BannerShown | components/forms/security-step.tsx:91 | the banner shows only for a non-empty selection whose first warning is a flagged item the user chose |
| SecurityStep.BannerIffDisclosable | components/forms/security-step.tsx:91 | the disclosure banner shows exactly when `cctv_interior` or `weapon` is selected, and those are the only warned items |
| SecurityStep.WarningsInCatalogueOrder | components/forms/security-step.tsx:11-68 | the warnings list is interior CCTV (if selected) followed by weapon (if selected), in catalogue order |
| SecurityStep.WarningsOfAppend | components/forms/security-step.tsx:79 | the warnings of a list split in two are the warnings of each part, in order |
| SecurityStep.WarningsOfUnflagged | components/forms/security-step.tsx:11-68 | items without a warning never produce a warning, whatever is selected |
| SecurityStep.ChooseNone | components/forms/security-step.tsx:173 | "None of the above" leaves no id selected |
| SecurityStep.NoneHighlighted | components/forms/security-step.tsx:176 | "None of the above" is highlighted when nothing is selected |
| SecurityStep.NoneClearsBanner | components/forms/security-step.tsx:173-176 | after "None", the None button is highlighted and no banner shows |
| SecurityStep.ToggleWarningItem | components/forms/security-step.tsx:71-91 | selecting a warned item shows the banner; deselecting it shows the banner only if the other warned item stays selected |
| VerificationStep.IsInvalid | components/forms/verification-step.tsx:34-36 | a required field is flagged when it has been left and is empty (an empty string, or an unticked box) |
| VerificationStep.PhoneFlagged | components/forms/verification-step.tsx:38-40 | once left, the phone is flagged when it is empty, has a length other than ten or holds a non-digit; ten sanitised digits are never flagged |
| VerificationStep.EmailFlagged | components/forms/verification-step.tsx:42-44 | the email is flagged when it has been left and does not have the `local@domain.label` shape |
| VerificationStep.TermsErrorShown | components/forms/verification-step.tsx:255 | the terms error needs `agreeToTerms` to be touched and unticked |
| VerificationStep.IdNumberShown | components/forms/verification-step.tsx:193 | the id-number input exists only once an id type is chosen |
| VerificationStep.SanitizePhone | components/forms/verification-step.tsx:118 | the stored phone is the first `min(10, digits typed)` digits of the input, in order |
| VerificationStep.ShapedMatchesPattern | components/forms/verification-step.tsx:42-44 | a string passing the position check splits the way the pattern requires |
| VerificationStep.SplitIsShaped | components/forms/verification-step.tsx:42-44 | a split the pattern accepts passes the position check |
| VerificationStep.EmailShapedIffPattern | components/forms/verification-step.tsx:42-44 | the compiled email check holds exactly when the string splits as non-empty local part, `@`, non-empty domain, `.`, non-empty last label, each free of `@` and whitespace |
| VerificationStep.Step | components/forms/verification-step.tsx:30-32 | every event keeps touched fields touched and never touches `agreeToTerms`; each edit writes only its own field (the phone sanitised, the id number upper-cased, and only once an id type is chosen); leaving a field marks only that field and changes no data |
| VerificationStep.RunOnlyTouches | components/forms/verification-step.tsx:30-32 | over any sequence of events the touched record only gains entries |
| VerificationStep.TermsErrorNeverShown | components/forms/verification-step.tsx:231-236 | no handler marks `agreeToTerms` as touched, so the terms error never shows |
| VerificationStep.PhoneFlagAfterTyping | components/forms/verification-step.tsx:38-40 | after typing, the phone is flagged exactly when it was left before and fewer than ten digits were typed |
| VerificationStep.NameFlagAfterLeaving | components/forms/verification-step.tsx:34-36 | after leaving the name field, it is flagged exactly when it is empty |
| LocationStep.IsInvalid | components/forms/location-step.tsx:33-35 | a field is flagged when it has been left and is empty |
| LocationStep.ApplyEdit | components/forms/location-step.tsx:54 | an edit changes only its own field; the pincode becomes the first `min(6, digits typed)` digits of the input |
| LocationStep.Leave | components/forms/location-step.tsx:29-31 | leaving marks that field touched and leaves every other field's mark as it was |
| LocationStep.ShortPincodeNotFlagged | components/forms/location-step.tsx:137 | a non-empty pincode shorter than six digits is not flagged |
| LocationStep.FlaggedAfterLeaving | components/forms/location-step.tsx:33-35 | after leaving a field, it is flagged exactly when it is empty |
| LocationStep.TypingClearsError | components/forms/location-step.tsx:125-127 | typing clears a field's error exactly when something survives sanitising |
| BasicsStep.Decrement | components/forms/basics-step.tsx:40 | minus yields `max(min, v - 1)`, never below the minimum |
| BasicsStep.Increment | components/forms/basics-step.tsx:54 | plus yields `min(max, v + 1)`, never above the maximum |
| BasicsStep.MinusDisabled | components/forms/basics-step.tsx:41 | minus is disabled at or below the minimum |
| BasicsStep.PlusDisabled | components/forms/basics-step.tsx:55 | plus is disabled at or above the maximum |
| BasicsStep.DisabledExactlyAtBounds | components/forms/basics-step.tsx:41-55 | within the range, a button is disabled exactly when pressing it would not change the value |
| BasicsStep.CounterInverse | components/forms/basics-step.tsx:40-54 | an enabled plus undoes minus, and an enabled minus undoes plus |
| BasicsStep.ClicksStayInRange | components/forms/basics-step.tsx:40-55 | a counter that starts in range stays in range over any clicks |
| BasicsStep.ApplyEdit | components/forms/basics-step.tsx:84-131 | each edit stores its value in its own field and changes nothing else; a non-numeric area is stored as 0 |
| BasicsStep.RoomCountsStayInRange | components/forms/basics-step.tsx:104-119 | bedrooms and bathrooms stay within 0 to 20 under any clicks |
| Listing.NumberOrZero | components/forms/pricing-step.tsx:57 | non-numeric input is stored as 0; a number is stored as itself |
| CharCount.HintFor | components/forms/title-step.tsx:57-63 | the error shows exactly when touched and under the minimum; "looks good" exactly at or above it; otherwise the count needed makes up the minimum |
| TitleStep.TypeTitle | components/forms/title-step.tsx:48 | a typed title is the input itself when it fits, else exactly its first 80 characters |
| TitleStep.ViewOf | components/forms/title-step.tsx:27-71 | the error shows exactly when touched and under 10; "looks good" and the preview show exactly at 10 or more; the count needed is `10 - length`; the counter is red exactly at 80 or more |
| TitleStep.SuggestionsFit | components/forms/title-step.tsx:14-23 | every suggestion has between 10 and 80 characters |
| TitleStep.PickedSuggestionLooksGood | components/forms/title-step.tsx:88 | a picked suggestion shows the preview and no error |
| TitleStep.TypedCounterRedWhenFull | components/forms/title-step.tsx:48-64 | after typing, the counter is red exactly when at least 80 characters were typed |
| DescriptionStep.TypeDescription | components/forms/description-step.tsx:53 | a typed description is the input itself when it fits, else exactly its first 1000 characters |
| DescriptionStep.Separator | components/forms/description-step.tsx:35 | the separator is `". "` after a description with visible text and empty after a blank one |
| DescriptionStep.AppendSuggestion | components/forms/description-step.tsx:34-38 | the result is the first `min(1000, len)` characters of trimmed text, separator and suggestion; it begins with the trimmed text, and is the suggestion alone for a blank description |
| DescriptionStep.AppendKeepsTypedText | components/forms/description-step.tsx:34-53 | appending a suggestion keeps the trimmed typed text at the start |
| DescriptionStep.ViewOf | components/forms/description-step.tsx:29-81 | the error shows exactly when touched and under 50; "looks good" shows exactly at 50 or more, else the count needed is `50 - length`; the counter is red exactly above 1000 |
| DescriptionStep.EditsNeverOverMax | components/forms/description-step.tsx:31-53 | neither typing nor appending can make the counter red |
| Money.TierOf | components/forms/pricing-step.tsx:18-23 | the tier is crore from 10,000,000, lakh from 100,000, thousand from 1,000, and plain below |
| Money.TierScale | components/cards/FlatCard.tsx:26-33 | a scaled tier's divisor is at most the price; a lakh or thousand figure is below 100 of its unit; a plain price is below 1,000 |
| Money.Text | components/cards/FlatCard.tsx:26-34 | a rendered price starts with `₹` and ends with the tier's unit followed by the suffix |
| PricingStep.FormatInr | components/forms/pricing-step.tsx:18-23 | the form's formatter picks the tier of the value and shows one decimal in every scaled tier |
| PricingStep.Suggestions | components/forms/pricing-step.tsx:27-28 | the rent list is offered exactly for rent and the sale list for sale |
| PricingStep.ShowError | components/forms/pricing-step.tsx:29 | the price error shows when the field was left and the price is zero or negative |
| PricingStep.FormattedLine | components/forms/pricing-step.tsx:69-73 | the formatted line appears exactly when the price is positive, shows that price with `formatINR`'s tier and fraction digits, and ends in " / month" exactly for rent and " total" exactly for sale |
| PricingStep.ApplyEdit | components/forms/pricing-step.tsx:57-91 | a typed number is stored as itself and non-numeric input as 0; a picked suggestion stores exactly its value |
| PricingStep.PickedSuggestionIsValid | components/forms/pricing-step.tsx:29-91 | a picked suggestion never shows the price error and always shows the formatted line |
| PricingStep.SuggestionTiers | components/forms/pricing-step.tsx:15-16 | every rent suggestion is in thousands; every sale suggestion is in lakhs or crores |
| CardParts.Truncate | components/cards/FlatCard.tsx:159-174 | the first `min(n, len)` items are shown, with a `+M more` count exactly when items are hidden, and shown plus hidden is the whole list |
| CardParts.SpaceUnderscores | components/cards/FlatCard.tsx:166 | every `_` becomes a space, every other character stays, and the length is kept |
| CardParts.SpaceUnderscoresIdempotent | components/cards/MarriageGardenCard.tsx:163 | rewriting a rewritten label changes nothing |
| CardParts.ApprovalBadge | components/cards/MarriageGardenCard.tsx:85-94 | "Pending" exactly when `isApproved` is false, "Approved" exactly when true, neither when absent |
| CardParts.LinkOr | components/cards/MarriageGardenCard.tsx:60 | a given `href` wins, else the fallback link |
| CardParts.Cover | components/cards/FlatCard.tsx:57 | a cover image exists exactly when the first image is present and non-empty, and it is that image |
| FlatCard.FormatPrice | components/cards/FlatCard.tsx:25-35 | the tier follows the price; one decimal for crore and lakh, none for thousands; `/mo` exactly for rent |
| FlatCard.RentLabelEndsPerMonth | components/cards/FlatCard.tsx:34 | a rent price always ends in `/mo` |
| FlatCard.AmenityRow | components/cards/FlatCard.tsx:159-174 | no row without amenities; else the first `min(len, 3)` amenities as chips, each with spaces for underscores, and `+{len-3} more` exactly when more than 3 |
| FlatCard.BedWord | components/cards/FlatCard.tsx:144 | "Bed" exactly for one bedroom, else "Beds" |
| FlatCard.BathWord | components/cards/FlatCard.tsx:148 | "Bath" exactly for one bathroom, else "Baths" |
| FlatCard.Href | components/cards/FlatCard.tsx:56 | the link defaults to `/dashboard/user/properties/{id}` |
| FlatCard.PhotoBadge | components/cards/FlatCard.tsx:106-108 | the photo badge shows exactly with more than one image, and shows the image count |
| FlatCard.DefaultLinkAccess | components/cards/FlatCard.tsx:56 | the default card link sends an anonymous visitor to `/login` and an admin to `/dashboard/admin`, and lets a user through |
| MarriageGardenCard.FormatPrice | components/cards/MarriageGardenCard.tsx:23-28 | the tier follows the price; one decimal for crore and lakh, none for thousands; no suffix |
| MarriageGardenCard.IconOf | components/cards/MarriageGardenCard.tsx:163 | a known amenity gets its icon; the `✓` fallback is used exactly for unknown ones |
| MarriageGardenCard.AmenityRow | components/cards/MarriageGardenCard.tsx:156-172 | no row without amenities; else the first `min(len, 4)` amenities as chips, each with its icon and rewritten label, and `+{len-4} more` exactly when more than 4 |
| MarriageGardenCard.PackageBox | components/cards/MarriageGardenCard.tsx:175-194 | no box without packages; else the first `min(len, 2)` packages, and `+{len-2} more packages` exactly when more than 2 |
| MarriageGardenCard.TagRow | components/cards/MarriageGardenCard.tsx:134-153 | the tag row shows exactly when there are food or decoration types; it shows the first `min(len, 2)` food types and the first `min(len, 1)` decoration types |
| MarriageGardenCard.Href | components/cards/MarriageGardenCard.tsx:60 | the link defaults to `/dashboard/user/venues/{id}` |
| MarriageGardenCard.PackageCount | components/cards/MarriageGardenCard.tsx:113-115 | the packages badge shows exactly with packages, with their number |
| MarriageGardenCard.PackagesHref | components/cards/MarriageGardenCard.tsx:227 | the packages button opens the card link with `?tab=packages` appended |
| MarriageGardenCard.PackageLinesInOrder | components/cards/MarriageGardenCard.tsx:179-184 | previewed line `k` is package `k`, for the first two packages |
| Faq.Click | components/landing/faq.tsx:70 | clicking the open item closes it; clicking a closed item makes it the only open item |
| Faq.Sign | components/landing/faq.tsx:77 | the sign is `−` exactly on the open item and `+` elsewhere |
| Faq.ClicksKeepOpenQuestionListed | components/landing/faq.tsx:40-70 | starting closed or on one of the six questions, any clicks on the questions leave nothing or one of them open |
| Faq.LastClickDecides | components/landing/faq.tsx:70-81 | after any clicks, the open item, if any, is the one clicked last |
| Faq.DoubleClick | components/landing/faq.tsx:70 | clicking the same item twice restores the state exactly when nothing or that item was open |

## Left out

- The Supabase session (`updateSession`) is a foreign call. A user is given only as the optional `role` of its metadata.
- The `matcher` configuration in `middleware.ts:47-51` is framework routing, not guard logic.
- The network upload in `photos-step.tsx:17-29`, with `FormData`, `fetch` and `Promise.all`, is I/O and concurrency.
  - The outcome of each file's upload is a function parameter indexed by the file's position in the batch: a stored URL, a failed response, or an exception. Two files of the same type can therefore fare differently.
  - The `uploading` and drag-over flags only drive the display.
- Number rendering is floating-point formatting and is not modelled. This covers `toFixed`, `toString`, `toLocaleString` and `parseFloat`.
  - Prices and the area are integers.
  - A price label records its tier, digit count and suffix. The numeral is supplied by the caller.
- `toLowerCase`, `toUpperCase` and `trim` are modelled only in part.
  - Case mapping covers ASCII letters only.
  - Trimming uses the ECMAScript whitespace and line-terminator characters.
- Each change event carries the input's value after the browser's `maxLength` cut: ten characters for the phone (`verification-step.tsx:123`) and six for the pincode (`location-step.tsx:131`). The handlers cut again to the same length, so the model applies the cut once, in the handler.
- Text.Take: counts characters (Unicode scalar values), while JavaScript's `slice` and `length` count UTF-16 code units. The two agree exactly when no character lies outside the Basic Multilingual Plane (Text.Utf16LengthWithoutAstral). With emoji, the source counts each as two and may cut one in half.
- Text.ToUpper: maps ASCII letters only and keeps every other character unchanged, while JavaScript upper-cases them too (`é` becomes `É`, and `ß` becomes `SS`, which changes the length). An id number typed with such letters is stored as typed in the model.
- TitleStep.TypeTitle: the 80-character cap is counted in characters, not UTF-16 code units; see Text.Take.
- TitleStep.ViewOf: the 10-character minimum and the counter use character counts, which match `title.length` only without astral characters (Text.Utf16LengthWithoutAstral).
- TitleStep.TypedCounterRedWhenFull: the counter is in characters; with astral characters the source's count is larger (Text.Utf16LengthWithAstral).
- DescriptionStep.TypeDescription: the 1000-character cap is counted in characters, not UTF-16 code units; see Text.Take.
- DescriptionStep.AppendSuggestion: the cut to 1000 is counted in characters, not UTF-16 code units; see Text.Take.
- DescriptionStep.ViewOf: the 50-character minimum and the counter use character counts, which match `description.length` only without astral characters.
- Middleware.AdminPrefixedRoleLoops: stated for roles of lower-case letters and digits only. `new URL` rewrites other roles (dot segments, `?`, `#`, `\`, percent escapes), so the page they reach is not the one the raw string names. URL resolution is not modelled.
- Middleware.Guard: redirect targets are raw path strings; their resolution by `new URL` against the request is not modelled.
- Text.ToLower: maps ASCII letters only and keeps every other character unchanged, while JavaScript lower-cases them too (`É` becomes `é`). The guard's decisions do not depend on this difference. Outside ASCII, only the Kelvin sign lower-cases to an ASCII letter (`k`), and `k` occurs in none of `admin`, `vendor` and `user`. `İ` lower-cases to `i` followed by a combining dot, so it cannot complete `admin` either. So whether a role equals one of the three, or its home path starts with an area prefix, comes out the same. Only the text of a redirect target for such a role can differ.
- PhotosStep.MoveImage: requires the `from` index to lie inside the list. The buttons only call it
  that way. Out of range, the source would insert `undefined` into a list of strings.
- The amenity-icon lookup uses the ten keys of the table. Inherited JavaScript object properties
  such as `constructor` are not modelled as keys.
- JSX, Tailwind class strings, hover states, the per-card approve and reject callbacks and the
  admin action links are presentation.
- The place-type and property-type steps, the navigation bar and the landing sections other than the FAQ are outside this model.
  - The place-type and property-type steps are plain single-choice rendering.
  - The navigation bar repeats the guard's role normalisation.
- The wizard that chains the steps together and submits the listing is not part of this model.
- The location step's state list is not enforced. The select yields either `""` or a state name, and the
  model accepts any string for it.
- The rent-only security deposit input of the pricing step (`pricing-step.tsx:125-145`) has no handler and stores nothing.

Two formatters of the same price differ:

- The cards render 5,000 as `₹5K`, using `toFixed(0)`.
- The pricing step's own `formatINR` uses `toFixed(1)` in every scaled tier, so it renders `₹5.0K`. `PricingStep.FormatInr` records one decimal there.

## Findings

| source | as written | input that shows it | evidently intended | confidence | as-written member | corrected member |
|---|---|---|---|---|---|---|
| middleware.ts:18-34 | the role is any lower-cased metadata string, and admin pages are matched by raw prefix `/dashboard/admin` | a signed-in user whose metadata role is `Administrator` opens `/login`; the guard sends them to `/dashboard/administrator`, which starts with `/dashboard/admin`, so every request there redirects to the same page | roles are the closed set user / vendor / admin, with anything else treated as `user`, so every redirect lands on an admitted page | medium, not executed | Middleware.AdministratorRedirectLoop | Middleware.ClosedRoleNoSecondRedirect |

=== FILE: amenities_step.dfy ===
/** The amenities step: a catalogue of amenity buttons that toggle ids in the selection. */
module AmenitiesStep {
  import opened Wrappers
  import Selection

  /** The catalogue ids, group by group: essentials, safety, features, furnishing. */
  const Catalogue: seq<string> := [
    "wifi", "ac", "heating", "kitchen", "washer", "parking",
    "cctv", "security", "fire_extinguisher", "first_aid",
    "gym", "pool", "lift", "garden", "terrace", "clubhouse",
    "furnished", "semi_furnished", "modular_kitchen", "wardrobes"
  ]

  /** The "N amenities selected" badge: the count, shown only when something is selected. */
  function CountBadge(selected: seq<string>): (badge: Option<nat>)
    ensures badge.Some? <==> exists id :: id in selected
    ensures badge.Some? ==> badge.value == |selected|
  {
    if |selected| > 0 then assert selected[0] in selected; Some(|selected|) else None
  }

  /** Clicking a catalogue button flips that button's highlight and no other. */
  lemma ClickFlipsOneButton(selected: seq<string>, clicked: nat)
    requires clicked < |Catalogue|
    ensures forall k :: 0 <= k < |Catalogue| ==>
      (Catalogue[k] in Selection.Toggle(selected, Catalogue[clicked]) <==>
        (if Catalogue[k] == Catalogue[clicked] then Catalogue[k] !in selected else Catalogue[k] in selected))
  {
  }
}

=== FILE: basics_step.dfy ===
/** The basics step: rent or sale, bedroom and bathroom counters, and the floor area. */
module BasicsStep {
  import opened Listing

  datatype Data = Data(bedrooms: int, bathrooms: int, area: int, status: Status)

  const RoomsMin := 0
  const RoomsMax := 20

  /** The counter's minus button: `Math.max(min, value - 1)`. */
  function Decrement(v: int, lo: int): (r: int)
    ensures r >= lo
    ensures v <= lo ==> r == lo
    ensures v > lo ==> r == v - 1
  {
    if v - 1 > lo then v - 1 else lo
  }

  /** The counter's plus button: `Math.min(max, value + 1)`. */
  function Increment(v: int, hi: int): (r: int)
    ensures r <= hi
    ensures v >= hi ==> r == hi
    ensures v < hi ==> r == v + 1
  {
    if v + 1 < hi then v + 1 else hi
  }

  /** `disabled={value <= min}`: exactly when a press would not lower the value. */
  function MinusDisabled(v: int, lo: int): (disabled: bool)
    ensures disabled <==> Decrement(v, lo) >= v
  {
    v <= lo
  }

  /** `disabled={value >= max}`: exactly when a press would not raise the value. */
  function PlusDisabled(v: int, hi: int): (disabled: bool)
    ensures disabled <==> Increment(v, hi) <= v
  {
    v >= hi
  }

  /** Plus undoes an enabled minus, and minus undoes an enabled plus. */
  lemma CounterInverse(v: int, lo: int, hi: int)
    ensures !MinusDisabled(v, lo) && v <= hi ==> Increment(Decrement(v, lo), hi) == v
    ensures !PlusDisabled(v, hi) && v >= lo ==> Decrement(Increment(v, hi), lo) == v
  {
  }

  /** Within the range, a button is disabled exactly when pressing it would not change the value. */
  lemma DisabledExactlyAtBounds(v: int, lo: int, hi: int)
    requires lo <= v <= hi
    ensures MinusDisabled(v, lo) <==> Decrement(v, lo) == v
    ensures PlusDisabled(v, hi) <==> Increment(v, hi) == v
  {
  }

  datatype Click = Minus | Plus

  /** A run of clicks; a click on a disabled button does nothing. */
  function Clicks(v: int, lo: int, hi: int, clicks: seq<Click>): int
    decreases |clicks|
  {
    if clicks == [] then v
    else
      var next := match clicks[0]
        case Minus => if MinusDisabled(v, lo) then v else Decrement(v, lo)
        case Plus => if PlusDisabled(v, hi) then v else Increment(v, hi);
      Clicks(next, lo, hi, clicks[1..])
  }

  /** A counter that starts in range stays in range. */
  lemma {:induction false} ClicksStayInRange(v: int, lo: int, hi: int, clicks: seq<Click>)
    requires lo <= v <= hi
    ensures lo <= Clicks(v, lo, hi, clicks) <= hi
    decreases |clicks|
  {
    if clicks != [] {
      var next := match clicks[0]
        case Minus => if MinusDisabled(v, lo) then v else Decrement(v, lo)
        case Plus => if PlusDisabled(v, hi) then v else Increment(v, hi);
      ClicksStayInRange(next, lo, hi, clicks[1..]);
    }
  }

  /** Edits of the step; each replaces one field. */
  datatype Edit = StatusChosen(status: Status) | BedroomsSet(count: int) | BathroomsSet(count: int) | AreaTyped(parsed: Parsed)

  function ApplyEdit(d: Data, e: Edit): (r: Data)
    ensures e.StatusChosen? ==> r == d.(status := e.status)
    ensures e.AreaTyped? ==> r.area == NumberOrZero(e.parsed) && r.(area := d.area) == d
    ensures e.BedroomsSet? ==> r.bedrooms == e.count && r.(bedrooms := d.bedrooms) == d
    ensures e.BathroomsSet? ==> r.bathrooms == e.count && r.(bathrooms := d.bathrooms) == d
  {
    match e
    case StatusChosen(s) => d.(status := s)
    case BedroomsSet(n) => d.(bedrooms := n)
    case BathroomsSet(n) => d.(bathrooms := n)
    case AreaTyped(p) => d.(area := NumberOrZero(p))
  }

  /** Bedroom and bathroom counts entered through the counters stay within 0 to 20. */
  lemma RoomCountsStayInRange(d: Data, bedClicks: seq<Click>, bathClicks: seq<Click>)
    requires RoomsMin <= d.bedrooms <= RoomsMax && RoomsMin <= d.bathrooms <= RoomsMax
    ensures var r := ApplyEdit(ApplyEdit(d, BedroomsSet(Clicks(d.bedrooms, RoomsMin, RoomsMax, bedClicks))),
                               BathroomsSet(Clicks(d.bathrooms, RoomsMin, RoomsMax, bathClicks)));
      RoomsMin <= r.bedrooms <= RoomsMax && RoomsMin <= r.bathrooms <= RoomsMax
  {
    ClicksStayInRange(d.bedrooms, RoomsMin, RoomsMax, bedClicks);
    ClicksStayInRange(d.bathrooms, RoomsMin, RoomsMax, bathClicks);
  }
}

=== FILE: card_parts.dfy ===
/** Pieces shared by the listing cards: chip truncation, label rewriting, badges and links. */
module CardParts {
  import opened Wrappers

  /** The first `shown` items of a list, and the count behind a trailing `+M more` chip, if any. */
  datatype Preview<T> = Preview(shown: seq<T>, more: Option<nat>)

  /** `items.slice(0, n)` and `items.length > n && +{items.length - n} more`. */
  function Truncate<T>(items: seq<T>, n: nat): (p: Preview<T>)
    ensures |p.shown| <= n && p.shown <= items
    ensures p.more.Some? <==> |items| > n
    ensures p.more.Some? ==> |p.shown| + p.more.value == |items| && p.more.value > 0
    ensures p.more.None? ==> p.shown == items
    ensures |items| > n ==> |p.shown| == n
  {
    if |items| > n then Preview(items[..n], Some(|items| - n)) else Preview(items, None)
  }

  /** `s.replace(/_/g, ' ')`. */
  function SpaceUnderscores(s: string): (r: string)
    ensures |r| == |s|
    ensures forall k :: 0 <= k < |r| ==> r[k] != '_'
    ensures forall k :: 0 <= k < |s| && s[k] != '_' ==> r[k] == s[k]
    ensures forall k :: 0 <= k < |s| && s[k] == '_' ==> r[k] == ' '
    decreases |s|
  {
    if s == [] then []
    else [if s[0] == '_' then ' ' else s[0]] + SpaceUnderscores(s[1..])
  }

  /** Rewriting twice is rewriting once: no underscore is left to replace. */
  lemma SpaceUnderscoresIdempotent(s: string)
    ensures SpaceUnderscores(SpaceUnderscores(s)) == SpaceUnderscores(s)
  {
  }

  datatype Badge = NoBadge | Pending | Approved

  /** `isApproved === false` shows Pending, `=== true` shows Approved, an absent flag shows neither. */
  function ApprovalBadge(isApproved: Option<bool>): (b: Badge)
    ensures b == Pending <==> isApproved == Some(false)
    ensures b == Approved <==> isApproved == Some(true)
  {
    match isApproved
    case None => NoBadge
    case Some(approved) => if approved then Approved else Pending
  }

  /** `href ?? fallback`: an empty `href` is kept, only an absent one falls back. */
  function LinkOr(href: Option<string>, fallback: string): (link: string)
    ensures href.Some? ==> link == href.value
    ensures href.None? ==> link == fallback
  {
    href.GetOr(fallback)
  }

  /** The cover image `images?.[0]`, used only when it is a non-empty URL. */
  function Cover(images: seq<string>): (c: Option<string>)
    ensures c.Some? <==> |images| > 0 && images[0] != ""
    ensures c.Some? ==> c.value == images[0]
  {
    if |images| > 0 && images[0] != "" then Some(images[0]) else None
  }
}

=== FILE: char_count.dfy ===
/**
 * The hint line under the title and description inputs: an error once the field has been
 * left while too short, otherwise how many characters are still needed, or an all-clear.
 */
module CharCount {

  datatype Hint = TooShortError(needed: nat) | MoreNeeded(needed: nat) | LooksGood

  /** The hint for a text of `len` characters, a minimum of `min`, and whether the field was left. */
  function HintFor(len: nat, min: nat, touched: bool): (h: Hint)
    ensures h.TooShortError? <==> touched && len < min
    ensures h.LooksGood? <==> len >= min
    ensures !h.LooksGood? ==> h.needed > 0 && len + h.needed == min
  {
    if touched && len < min then TooShortError(min - len)
    else if len >= min then LooksGood
    else MoreNeeded(min - len)
  }
}

=== FILE: description_step.dfy ===
/** The description step: at least 50 and at most 1000 characters, with quick-add highlights. */
module DescriptionStep {
  import Text
  import CharCount

  const MinChars := 50
  const MaxChars := 1000

  const Suggestions: seq<string> := [
    "Spacious and well-ventilated rooms",
    "Recently renovated",
    "Close to schools and hospitals",
    "Gated community with 24/7 security",
    "Great connectivity to metro/bus",
    "Prime location in city center",
    "Quiet and peaceful neighbourhood",
    "Walking distance to market"
  ]

  /** Typing: the input is cut to its first 1000 characters. */
  function TypeDescription(raw: string): (d: string)
    ensures |d| <= MaxChars && d <= raw
    ensures |raw| <= MaxChars ==> d == raw
    ensures |raw| >= MaxChars ==> |d| == MaxChars
  {
    Text.Take(raw, MaxChars)
  }

  /** `". "` after a description with visible text, nothing after a blank one. */
  function Separator(description: string): (sep: string)
    ensures !Text.AllSpace(description) ==> sep == ". "
    ensures Text.AllSpace(description) ==> sep == ""
  {
    if Text.Trim(description) != "" then ". " else ""
  }

  /** `appendSuggestion(text)`: the trimmed description, the separator and the highlight, cut to 1000 characters. */
  function AppendSuggestion(description: string, text: string): (r: string)
    ensures |r| <= MaxChars
    ensures r <= Text.Trim(description) + Separator(description) + text
    ensures var joined := Text.Trim(description) + Separator(description) + text;
      |r| == if |joined| < MaxChars then |joined| else MaxChars
    ensures |Text.Trim(description) + Separator(description) + text| <= MaxChars ==>
      r == Text.Trim(description) + Separator(description) + text
    ensures |Text.Trim(description)| <= MaxChars ==> Text.Trim(description) <= r
    ensures Text.AllSpace(description) ==> r == Text.Take(text, MaxChars)
  {
    Text.Take(Text.Trim(description) + Separator(description) + text, MaxChars)
  }

  /** Appending to any description reachable by typing keeps its trimmed text as the start. */
  lemma AppendKeepsTypedText(raw: string, text: string)
    ensures Text.Trim(TypeDescription(raw)) <= AppendSuggestion(TypeDescription(raw), text)
  {
  }

  /** What the step shows for a description. */
  datatype View = View(hint: CharCount.Hint, counterRed: bool)

  function ViewOf(description: string, touched: bool): (v: View)
    ensures v.hint.TooShortError? <==> touched && |description| < MinChars
    ensures v.hint.LooksGood? <==> |description| >= MinChars
    ensures !v.hint.LooksGood? ==> v.hint.needed == MinChars - |description|
    ensures v.counterRed <==> |description| > MaxChars
  {
    View(CharCount.HintFor(|description|, MinChars, touched), |description| > MaxChars)
  }

  /** Neither typing nor appending can push the text over the limit, so the red counter never shows after an edit. */
  lemma EditsNeverOverMax(before: string, raw: string, text: string, touched: bool)
    ensures !ViewOf(TypeDescription(raw), touched).counterRed
    ensures !ViewOf(AppendSuggestion(before, text), touched).counterRed
  {
  }
}

=== FILE: faq.dfy ===
/** The FAQ accordion: a list of questions of which at most one is open. */
module Faq {
  import opened Wrappers

  const QuestionCount := 6

  /** `openIndex`: the open question, or none. Being one value, it never names two questions. */
  type OpenIndex = Option<int>

  const Initial: OpenIndex := None

  predicate IsOpen(open: OpenIndex, index: int) {
    open == Some(index)
  }

  /** A click on question `index`: `openIndex === index ? null : index`. */
  function Click(open: OpenIndex, index: int): (r: OpenIndex)
    ensures IsOpen(open, index) ==> r == None
    ensures !IsOpen(open, index) ==> IsOpen(r, index)
    ensures forall j :: j != index ==> !IsOpen(r, j)
  {
    if open == Some(index) then None else Some(index)
  }

  /** The toggle sign: minus on the open question, plus on the others. */
  function Sign(open: OpenIndex, index: int): (s: string)
    ensures s == "−" <==> IsOpen(open, index)
    ensures s == "+" <==> !IsOpen(open, index)
  {
    if open == Some(index) then "−" else "+"
  }

  function Clicks(open: OpenIndex, clicks: seq<int>): OpenIndex
    decreases |clicks|
  {
    if clicks == [] then open else Clicks(Click(open, clicks[0]), clicks[1..])
  }

  /** After any clicks on the listed questions, nothing or one listed question is open. */
  lemma {:induction false} ClicksKeepOpenQuestionListed(open: OpenIndex, clicks: seq<int>)
    requires open.None? || 0 <= open.value < QuestionCount
    requires forall k :: 0 <= k < |clicks| ==> 0 <= clicks[k] < QuestionCount
    ensures var r := Clicks(open, clicks); r.None? || 0 <= r.value < QuestionCount
    decreases |clicks|
  {
    if clicks != [] {
      ClicksKeepOpenQuestionListed(Click(open, clicks[0]), clicks[1..]);
    }
  }

  /** After at least one click, the open question, if any, is the one clicked last. */
  lemma {:induction false} LastClickDecides(open: OpenIndex, clicks: seq<int>)
    requires |clicks| > 0
    ensures var r := Clicks(open, clicks); r.None? || r == Some(clicks[|clicks| - 1])
    decreases |clicks|
  {
    if |clicks| > 1 {
      LastClickDecides(Click(open, clicks[0]), clicks[1..]);
    }
  }

  /** Clicking the same question twice restores the state exactly when it was closed or that question was open. */
  lemma DoubleClick(open: OpenIndex, index: int)
    ensures Click(Click(open, index), index) == open <==> open.None? || open == Some(index)
  {
  }
}

=== FILE: flat_card.dfy ===
/** The card that lists a flat: price, badges, room counts and the first amenities. */
module FlatCard {
  import opened Wrappers
  import opened Listing
  import Money
  import CardParts
  import Middleware

  const AmenityChips := 3

  /** `formatPrice(price, status)`: whole thousands (`toFixed(0)`), and `/mo` after a rent. */
  function FormatPrice(price: int, status: Status): (p: Money.PriceLabel)
    ensures p.tier == Money.TierOf(price) && p.amount == price
    ensures p.suffix == "/mo" <==> status == Rent
    ensures status == Sale ==> p.suffix == ""
    ensures p.tier in {Money.Crore, Money.Lakh} ==> p.digits == Money.FixedDigits(1)
    ensures p.tier == Money.Thousand ==> p.digits == Money.FixedDigits(0)
    ensures p.tier == Money.Units ==> p.digits == Money.DefaultDigits
  {
    var t := Money.TierOf(price);
    var digits := match t
      case Crore => Money.FixedDigits(1)
      case Lakh => Money.FixedDigits(1)
      case Thousand => Money.FixedDigits(0)
      case Units => Money.DefaultDigits;
    Money.PriceLabel(t, price, digits, if status == Rent then "/mo" else "")
  }

  /** The rendered price ends in `/mo` for every rent, whatever the numeral. */
  lemma RentLabelEndsPerMonth(price: int, numeral: string)
    ensures var s := Money.Text(FormatPrice(price, Rent), numeral);
      |s| >= 3 && s[|s| - 3..] == "/mo"
  {
  }

  /** The amenity row: absent for no amenities, else three rewritten labels and a `+M more` count. */
  function AmenityRow(amenities: seq<string>): (row: Option<CardParts.Preview<string>>)
    ensures row.Some? <==> |amenities| > 0
    ensures row.Some? ==> |row.value.shown| == if |amenities| < AmenityChips then |amenities| else AmenityChips
    ensures row.Some? ==> forall k :: 0 <= k < |row.value.shown| ==>
      row.value.shown[k] == CardParts.SpaceUnderscores(amenities[k])
    ensures row.Some? ==> (row.value.more.Some? <==> |amenities| > AmenityChips)
    ensures row.Some? && row.value.more.Some? ==> row.value.more.value == |amenities| - AmenityChips
  {
    if |amenities| == 0 then None
    else
      var p := CardParts.Truncate(amenities, AmenityChips);
      Some(CardParts.Preview(seq(|p.shown|, k requires 0 <= k < |p.shown| => CardParts.SpaceUnderscores(p.shown[k])), p.more))
  }

  /** `Bed` for exactly one bedroom, `Beds` otherwise (zero included). */
  function BedWord(bedrooms: int): (w: string)
    ensures w == "Bed" <==> bedrooms == 1
    ensures w == "Beds" <==> bedrooms != 1
  {
    if bedrooms == 1 then "Bed" else "Beds"
  }

  /** `Bath` for exactly one bathroom, `Baths` otherwise. */
  function BathWord(bathrooms: int): (w: string)
    ensures w == "Bath" <==> bathrooms == 1
    ensures w == "Baths" <==> bathrooms != 1
  {
    if bathrooms == 1 then "Bath" else "Baths"
  }

  /** Where the card links to. */
  function Href(href: Option<string>, id: string): (link: string)
    ensures href.None? ==> link == "/dashboard/user/properties/" + id
    ensures href.Some? ==> link == href.value
  {
    CardParts.LinkOr(href, "/dashboard/user/properties/" + id)
  }

  /** The photo-count badge, shown only for more than one photo. */
  function PhotoBadge(images: seq<string>): (b: Option<nat>)
    ensures b.Some? <==> |images| > 1
    ensures b.Some? ==> b.value == |images|
  {
    if |images| > 1 then Some(|images|) else None
  }

  /**
   * The default card link lies in the user area: the route guard lets a `user` through but
   * sends an `admin` to the admin dashboard and an anonymous visitor to the login page.
   */
  lemma DefaultLinkAccess(id: string)
    ensures var link := Href(None, id);
      && Middleware.Guard(link, None) == Middleware.Redirect("/login")
      && Middleware.Guard(link, Some(Middleware.User(Some("admin")))) == Middleware.Redirect("/dashboard/admin")
      && Middleware.Guard(link, Some(Middleware.User(Some("user")))) == Middleware.Pass
  {
    var link := Href(None, id);
    assert link[..15] == Middleware.UserArea;
    assert Middleware.UserArea <= link;
    Middleware.AreaPrefixes(link);
    Middleware.AnonymousDashboardRule(link);
    Middleware.RoleAreaRules(link, Middleware.User(Some("admin")));
    Middleware.RoleAreaRules(link, Middleware.User(Some("user")));
  }
}

=== FILE: garden_card.dfy ===
/** The card that lists a marriage garden: price, tags, amenities with icons, and packages. */
module MarriageGardenCard {
  import opened Wrappers
  import Money
  import CardParts

  const AmenityChips := 4
  const PackagePreviews := 2
  const FoodTags := 2
  const DecorationTags := 1

  datatype Package = Package(name: string, price: int)

  /** `formatPrice(price)`: the same tiers as the flat card, and no suffix. */
  function FormatPrice(price: int): (p: Money.PriceLabel)
    ensures p.tier == Money.TierOf(price) && p.amount == price && p.suffix == ""
    ensures p.tier in {Money.Crore, Money.Lakh} ==> p.digits == Money.FixedDigits(1)
    ensures p.tier == Money.Thousand ==> p.digits == Money.FixedDigits(0)
    ensures p.tier == Money.Units ==> p.digits == Money.DefaultDigits
  {
    var t := Money.TierOf(price);
    var digits := match t
      case Crore => Money.FixedDigits(1)
      case Lakh => Money.FixedDigits(1)
      case Thousand => Money.FixedDigits(0)
      case Units => Money.DefaultDigits;
    Money.PriceLabel(t, price, digits, "")
  }

  const Fallback := "✓"

  const Icons: map<string, string> := map[
    "parking" := "🚗",
    "ac" := "❄️",
    "catering" := "🍽️",
    "decoration" := "🌸",
    "dj" := "🎵",
    "valet" := "🤵",
    "generator" := "⚡",
    "bridal_room" := "💍",
    "green_room" := "🪴",
    "wifi" := "📶"
  ]

  /** `amenityIcons[a] ?? '✓'`. */
  function IconOf(amenity: string): (icon: string)
    ensures amenity in Icons ==> icon == Icons[amenity]
    ensures amenity !in Icons ==> icon == Fallback
    ensures icon == Fallback <==> amenity !in Icons
  {
    if amenity in Icons then Icons[amenity] else Fallback
  }

  /** An amenity chip: its icon and its label with underscores as spaces. */
  datatype Chip = Chip(icon: string, text: string)

  function AmenityRow(amenities: seq<string>): (row: Option<CardParts.Preview<Chip>>)
    ensures row.Some? <==> |amenities| > 0
    ensures row.Some? ==> |row.value.shown| == if |amenities| < AmenityChips then |amenities| else AmenityChips
    ensures row.Some? ==> forall k :: 0 <= k < |row.value.shown| ==>
      row.value.shown[k] == Chip(IconOf(amenities[k]), CardParts.SpaceUnderscores(amenities[k]))
    ensures row.Some? ==> (row.value.more.Some? <==> |amenities| > AmenityChips)
    ensures row.Some? && row.value.more.Some? ==> row.value.more.value == |amenities| - AmenityChips
  {
    if |amenities| == 0 then None
    else
      var p := CardParts.Truncate(amenities, AmenityChips);
      Some(CardParts.Preview(
        seq(|p.shown|, k requires 0 <= k < |p.shown| => Chip(IconOf(p.shown[k]), CardParts.SpaceUnderscores(p.shown[k]))),
        p.more))
  }

  /** The packages box: absent without packages, else two packages and a `+M more packages` count. */
  function PackageBox(packages: seq<Package>): (box: Option<CardParts.Preview<Package>>)
    ensures box.Some? <==> |packages| > 0
    ensures box.Some? ==> |box.value.shown| <= PackagePreviews && box.value.shown <= packages
    ensures box.Some? ==> |box.value.shown| == if |packages| < PackagePreviews then |packages| else PackagePreviews
    ensures box.Some? ==> (box.value.more.Some? <==> |packages| > PackagePreviews)
    ensures box.Some? && box.value.more.Some? ==> box.value.more.value == |packages| - PackagePreviews
  {
    if |packages| == 0 then None else Some(CardParts.Truncate(packages, PackagePreviews))
  }

  /** The food and decoration tags: absent when both lists are empty, else two food tags and one decoration tag. */
  function TagRow(foodTypes: seq<string>, decorationTypes: seq<string>): (row: Option<(seq<string>, seq<string>)>)
    ensures row.Some? <==> |foodTypes| > 0 || |decorationTypes| > 0
    ensures row.Some? ==> |row.value.0| <= FoodTags && row.value.0 <= foodTypes
    ensures row.Some? ==> |row.value.1| <= DecorationTags && row.value.1 <= decorationTypes
    ensures row.Some? ==> |row.value.0| == if |foodTypes| < FoodTags then |foodTypes| else FoodTags
    ensures row.Some? ==> |row.value.1| == if |decorationTypes| < DecorationTags then |decorationTypes| else DecorationTags
  {
    if |foodTypes| == 0 && |decorationTypes| == 0 then None
    else Some((CardParts.Truncate(foodTypes, FoodTags).shown, CardParts.Truncate(decorationTypes, DecorationTags).shown))
  }

  /** Where the card links to: the venue page unless an `href` is given. */
  function Href(href: Option<string>, id: string): (link: string)
    ensures href.None? ==> link == "/dashboard/user/venues/" + id
    ensures href.Some? ==> link == href.value
  {
    CardParts.LinkOr(href, "/dashboard/user/venues/" + id)
  }

  /** The package-count badge next to the price. */
  function PackageCount(packages: seq<Package>): (b: Option<nat>)
    ensures b.Some? <==> |packages| > 0
    ensures b.Some? ==> b.value == |packages|
  {
    if |packages| > 0 then Some(|packages|) else None
  }

  /** The second button opens the same page on its packages tab. */
  function PackagesHref(href: Option<string>, id: string): (link: string)
    ensures Href(href, id) <= link
    ensures link[|Href(href, id)|..] == "?tab=packages"
  {
    Href(href, id) + "?tab=packages"
  }

  /** The box lists the packages from the front: line `k` is package `k`, for the first two. */
  lemma PackageLinesInOrder(packages: seq<Package>, k: nat)
    requires k < |packages| && k < PackagePreviews
    ensures PackageBox(packages).Some?
    ensures PackageBox(packages).value.shown[k] == packages[k]
  {
    var box := PackageBox(packages).value;
    assert |box.shown| == PackagePreviews || box.shown == packages;
  }
}

=== FILE: listing.dfy ===
/** Values shared by the listing form steps and the listing cards. */
module Listing {

  /** A flat is offered for rent (monthly price) or for sale (total price). */
  datatype Status = Rent | Sale

  /** How an `<input type="number">` value read back: a number, or `NaN` for text that does not parse. */
  datatype Parsed = Number(value: int) | NotANumber

  /** `parseFloat(v) || 0`: `NaN` becomes `0`; a parsed `0` is falsy too but is replaced by the same `0`. */
  function NumberOrZero(p: Parsed): (n: int)
    ensures p.NotANumber? ==> n == 0
    ensures p.Number? ==> n == p.value
  {
    match p
    case Number(v) => v
    case NotANumber => 0
  }
}

=== FILE: location_step.dfy ===
/** The location step: address, city, state and a six-digit pincode, all required. */
module LocationStep {
  import Text
  import opened Touched

  datatype Data = Data(location: string, city: string, state: string, pincode: string)

  datatype Field = Location | City | State | Pincode

  function Key(f: Field): string {
    match f
    case Location => "location"
    case City => "city"
    case State => "state"
    case Pincode => "pincode"
  }

  function Value(d: Data, f: Field): string {
    match f
    case Location => d.location
    case City => d.city
    case State => d.state
    case Pincode => d.pincode
  }

  const PincodeLength := 6

  /** `isInvalid(field)`: left at least once and still empty. */
  function IsInvalid(touched: TouchedMap, d: Data, f: Field): (flagged: bool)
    ensures flagged ==> IsTouched(touched, Key(f))
    ensures |Value(d, f)| > 0 ==> !flagged
    ensures IsTouched(touched, Key(f)) && |Value(d, f)| == 0 ==> flagged
  {
    IsTouched(touched, Key(f)) && Value(d, f) == ""
  }

  /** A change event of one field. The state select yields an option value: `""` or a state name. */
  datatype Edit = Typed(field: Field, text: string)

  /** `onChange({ [field]: value })`, with the pincode reduced to at most six digits. */
  function ApplyEdit(d: Data, e: Edit): (r: Data)
    ensures forall f :: f != e.field ==> Value(r, f) == Value(d, f)
    ensures e.field != Pincode ==> Value(r, e.field) == e.text
    ensures e.field == Pincode ==> Text.AllDigits(r.pincode) && |r.pincode| <= PincodeLength
    ensures e.field == Pincode ==> r.pincode <= Text.KeepDigits(e.text)
    ensures e.field == Pincode ==>
      |r.pincode| == if |Text.KeepDigits(e.text)| < PincodeLength then |Text.KeepDigits(e.text)| else PincodeLength
  {
    match e.field
    case Location => d.(location := e.text)
    case City => d.(city := e.text)
    case State => d.(state := e.text)
    case Pincode => d.(pincode := Text.SanitizeDigits(e.text, PincodeLength))
  }

  /** `handleBlur(field)`. */
  function Leave(touched: TouchedMap, f: Field): (r: TouchedMap)
    ensures IsTouched(r, Key(f))
    ensures forall g :: IsTouched(touched, g) ==> IsTouched(r, g)
    ensures forall g :: g != f ==> (IsTouched(r, Key(g)) <==> IsTouched(touched, Key(g)))
  {
    Blur(touched, Key(f))
  }

  /** Only emptiness is checked: a short pincode such as `3020` is not flagged. */
  lemma ShortPincodeNotFlagged(touched: TouchedMap, d: Data)
    requires 0 < |d.pincode| < PincodeLength
    ensures !IsInvalid(touched, d, Pincode)
  {
  }

  /** After leaving a field, it is flagged exactly when it is empty. */
  lemma FlaggedAfterLeaving(touched: TouchedMap, d: Data, f: Field)
    ensures IsInvalid(Leave(touched, f), d, f) <==> Value(d, f) == ""
  {
  }

  /** Typing into a field clears its error exactly when something survives sanitising. */
  lemma TypingClearsError(touched: TouchedMap, d: Data, e: Edit)
    ensures !IsInvalid(touched, ApplyEdit(d, e), e.field) <==>
      !IsTouched(touched, Key(e.field)) ||
      (if e.field == Pincode then Text.KeepDigits(e.text) != "" else e.text != "")
  {
  }
}

=== FILE: middleware.dfy ===
/**
 * The route guard run before every page request. It looks at the request path and the
 * signed-in user (if any) and either lets the request through or redirects it.
 * Matching is a raw string-prefix test, exactly as the source's `startsWith`.
 */
module Middleware {
  import opened Wrappers
  import Text

  /** The signed-in user as the session provider reports it; only the `role` entry of the account metadata matters. */
  datatype User = User(metadataRole: Option<string>)

  datatype Decision = Pass | Redirect(target: string)

  const LoginPage := "/login"
  const SignupPage := "/signup"
  const DashboardRoot := "/dashboard"
  const AdminArea := "/dashboard/admin"
  const VendorArea := "/dashboard/vendor"
  const UserArea := "/dashboard/user"

  /** The role the guard acts on: the metadata role lower-cased, or `user` when the metadata has none. */
  function EffectiveRole(user: User): (role: string)
    ensures forall i :: 0 <= i < |role| ==> !Text.IsUpperAscii(role[i])
    ensures user.metadataRole.None? ==> role == "user"
    ensures user.metadataRole.Some? ==> |role| == |user.metadataRole.value|
    ensures user.metadataRole.Some? ==> forall i :: 0 <= i < |role| ==>
      var c := user.metadataRole.value[i];
      if Text.IsUpperAscii(c) then role[i] as int == c as int + 32 else role[i] == c
  {
    match user.metadataRole
    case None => "user"
    case Some(r) => Text.ToLower(r)
  }

  /** The dashboard the guard sends a member with this role to. */
  function DashboardOf(role: string): string {
    DashboardRoot + "/" + role
  }

  /** The decision table, branch for branch as the source orders it. */
  function Guard(path: string, user: Option<User>): (d: Decision)
    ensures d == Policy(path, user)
  {
    AreaPrefixes(path);
    if LoginPage <= path || SignupPage <= path then
      if user.Some? then Redirect(DashboardOf(EffectiveRole(user.value))) else Pass
    else if DashboardRoot <= path then
      if user.None? then Redirect(LoginPage)
      else
        var role := EffectiveRole(user.value);
        if AdminArea <= path && role != "admin" then Redirect(DashboardOf(role))
        else if VendorArea <= path && role != "vendor" && role != "admin" then Redirect(DashboardOf(role))
        else if UserArea <= path && role == "admin" then Redirect(DashboardOf("admin"))
        else Pass
    else Pass
  }

  // ---------------------------------------------------------------------------
  // An independent statement of the same access policy: every path belongs to one
  // area, each area admits some viewers, and a refused viewer is sent home.

  datatype Area = AuthPage | AdminPages | VendorPages | UserPages | OtherDashboard | Public

  datatype Viewer = Anonymous | Member(role: string)

  function Classify(path: string): Area {
    if LoginPage <= path || SignupPage <= path then AuthPage
    else if AdminArea <= path then AdminPages
    else if VendorArea <= path then VendorPages
    else if UserArea <= path then UserPages
    else if DashboardRoot <= path then OtherDashboard
    else Public
  }

  function ViewerOf(user: Option<User>): Viewer {
    if user.None? then Anonymous else Member(EffectiveRole(user.value))
  }

  predicate Permitted(area: Area, viewer: Viewer) {
    match area
    case AuthPage => viewer.Anonymous?
    case Public => true
    case OtherDashboard => viewer.Member?
    case AdminPages => viewer == Member("admin")
    case VendorPages => viewer == Member("vendor") || viewer == Member("admin")
    case UserPages => viewer.Member? && viewer.role != "admin"
  }

  function Home(viewer: Viewer): string {
    match viewer
    case Anonymous => LoginPage
    case Member(role) => DashboardOf(role)
  }

  function Policy(path: string, user: Option<User>): Decision {
    var viewer := ViewerOf(user);
    if Permitted(Classify(path), viewer) then Pass else Redirect(Home(viewer))
  }

  /** The three role areas are disjoint, lie under the dashboard, and no auth page is a dashboard page. */
  lemma AreaPrefixes(path: string)
    ensures AdminArea <= path || VendorArea <= path || UserArea <= path ==> DashboardRoot <= path
    ensures !(AdminArea <= path && VendorArea <= path)
    ensures !(AdminArea <= path && UserArea <= path)
    ensures !(VendorArea <= path && UserArea <= path)
    ensures LoginPage <= path || SignupPage <= path ==> !(DashboardRoot <= path)
  {
    if AdminArea <= path { assert path[..10] == AdminArea[..10]; assert path[11] == 'a'; }
    if VendorArea <= path { assert path[..10] == VendorArea[..10]; assert path[11] == 'v'; }
    if UserArea <= path { assert path[..10] == UserArea[..10]; assert path[11] == 'u'; }
    if LoginPage <= path { assert path[1] == 'l'; }
    if SignupPage <= path { assert path[1] == 's'; }
    if DashboardRoot <= path { assert path[1] == 'd'; }
  }

  // ---------------------------------------------------------------------------
  // The rules one by one.

  /** A signed-in user on a login or signup page is sent to their dashboard; an anonymous visitor passes. */
  lemma AuthPagesRule(path: string, user: Option<User>)
    requires LoginPage <= path || SignupPage <= path
    ensures user.Some? ==> Guard(path, user) == Redirect("/dashboard/" + EffectiveRole(user.value))
    ensures user.None? ==> Guard(path, user) == Pass
  {
  }

  /** Anonymous visitors are sent to the login page from every dashboard path. */
  lemma AnonymousDashboardRule(path: string)
    requires DashboardRoot <= path
    ensures Guard(path, None) == Redirect("/login")
  {
    AreaPrefixes(path);
  }

  /** Admin pages admit only `admin`; vendor pages admit `vendor` and `admin`; user pages send an admin home. */
  lemma RoleAreaRules(path: string, user: User)
    ensures var role := EffectiveRole(user);
      && (AdminArea <= path ==>
            Guard(path, Some(user)) == (if role == "admin" then Pass else Redirect("/dashboard/" + role)))
      && (VendorArea <= path ==>
            Guard(path, Some(user)) == (if role in {"vendor", "admin"} then Pass else Redirect("/dashboard/" + role)))
      && (UserArea <= path ==>
            Guard(path, Some(user)) == (if role == "admin" then Redirect("/dashboard/admin") else Pass))
  {
    AreaPrefixes(path);
  }

  /** Paths outside the auth pages and the dashboard always pass. */
  lemma PublicPathsPass(path: string, user: Option<User>)
    requires !(LoginPage <= path) && !(SignupPage <= path) && !(DashboardRoot <= path)
    ensures Guard(path, user) == Pass
  {
  }

  /** Two sample decisions of the guard. */
  lemma GuardExamples()
    ensures Guard("/dashboard/admin/x", Some(User(Some("vendor")))) == Redirect("/dashboard/vendor")
    ensures Guard("/dashboard/user/properties", None) == Redirect("/login")
  {
    AreaPrefixes("/dashboard/admin/x");
    AreaPrefixes("/dashboard/user/properties");
    assert AdminArea <= "/dashboard/admin/x";
    assert DashboardRoot <= "/dashboard/user/properties";
  }

  /** Where each home page falls. */
  lemma HomeAreas(role: string)
    ensures Classify(LoginPage) == AuthPage
    ensures Classify(DashboardOf(role)) in {AdminPages, VendorPages, UserPages, OtherDashboard}
    ensures role == "admin" ==> Classify(DashboardOf(role)) == AdminPages
    ensures role == "vendor" ==> Classify(DashboardOf(role)) == VendorPages
    ensures role == "user" ==> Classify(DashboardOf(role)) == UserPages
  {
    var home := DashboardOf(role);
    assert LoginPage <= LoginPage;
    assert home[..10] == DashboardRoot;
    assert DashboardRoot <= home;
    AreaPrefixes(home);
    if role == "admin" { assert AdminArea <= home; }
    if role == "vendor" { assert VendorArea <= home; }
    if role == "user" { assert UserArea <= home; }
  }

  /**
   * For the three known roles, and for anonymous visitors, a redirect always lands on
   * a page the same visitor is admitted to: there is never a second redirect.
   */
  lemma NoSecondRedirect(path: string, user: Option<User>)
    requires user.Some? ==> EffectiveRole(user.value) in {"user", "vendor", "admin"}
    ensures Guard(path, user).Redirect? ==> Guard(Guard(path, user).target, user) == Pass
  {
    var viewer := ViewerOf(user);
    match viewer
    case Anonymous => HomeAreas("");
    case Member(role) => HomeAreas(role);
  }

  // ---------------------------------------------------------------------------
  // Roles outside the three known ones.

  /**
   * A role of lower-case letters and digits only. The guard builds its redirect with
   * `new URL`, which rewrites dot segments, `?`, `#`, `\` and characters it percent-encodes;
   * such a role reaches the URL as written.
   */
  predicate PathPlain(role: string) {
    forall i :: 0 <= i < |role| ==> Text.IsLowerAscii(role[i]) || Text.IsDigit(role[i])
  }

  /**
   * A role that merely starts with `admin` (say `administrator`) has a home page that the
   * admin rule matches again, so the guard redirects that page to itself, forever.
   */
  lemma AdminPrefixedRoleLoops(user: User)
    requires "admin" <= EffectiveRole(user) && EffectiveRole(user) != "admin"
    requires PathPlain(EffectiveRole(user))
    ensures var home := "/dashboard/" + EffectiveRole(user);
      Guard(home, Some(user)) == Redirect(home)
  {
    var role := EffectiveRole(user);
    var home := DashboardOf(role);
    assert home[..16] == AdminArea;
    assert AdminArea <= home;
    AreaPrefixes(home);
  }

  /** The concrete case: metadata role `Administrator`, coming from the login page. */
  lemma AdministratorRedirectLoop()
    ensures var u := Some(User(Some("Administrator")));
      && Guard("/login", u) == Redirect("/dashboard/administrator")
      && Guard("/dashboard/administrator", u) == Redirect("/dashboard/administrator")
  {
    var user := User(Some("Administrator"));
    assert EffectiveRole(user) == "administrator";
    assert LoginPage <= "/login";
    AdminPrefixedRoleLoops(user);
  }

  /** The role as a closed set: unknown or absent roles count as `user`. */
  datatype Role = UserRole | VendorRole | AdminRole

  function RoleName(r: Role): string {
    match r
    case UserRole => "user"
    case VendorRole => "vendor"
    case AdminRole => "admin"
  }

  function ResolveRole(user: User): (r: Role)
    ensures EffectiveRole(user) == "admin" <==> r == AdminRole
    ensures EffectiveRole(user) == "vendor" <==> r == VendorRole
  {
    var role := EffectiveRole(user);
    if role == "admin" then AdminRole else if role == "vendor" then VendorRole else UserRole
  }

  /** The guard applied to a user whose role has first been resolved to the closed set. */
  function GuardClosedRole(path: string, user: Option<User>): (d: Decision)
    ensures user.Some? && EffectiveRole(user.value) in {"user", "vendor", "admin"} ==> d == Guard(path, user)
  {
    match user
    case None => Guard(path, None)
    case Some(u) =>
      var name := RoleName(ResolveRole(u));
      Text.ToLowerFixesLowered(name);
      Guard(path, Some(User(Some(name))))
  }

  /** With the closed role set there is never a second redirect, whatever the metadata says. */
  lemma ClosedRoleNoSecondRedirect(path: string, user: Option<User>)
    ensures var d := GuardClosedRole(path, user);
      d.Redirect? ==> GuardClosedRole(d.target, user) == Pass
  {
    match user
    case None => NoSecondRedirect(path, None);
    case Some(u) =>
      var name := RoleName(ResolveRole(u));
      Text.ToLowerFixesLowered(name);
      var canonical := Some(User(Some(name)));
      assert EffectiveRole(canonical.value) == name;
      NoSecondRedirect(path, canonical);
  }
}

=== FILE: money.dfy ===
/**
 * Indian-rupee price labels as the cards and the pricing step show them: crore (10^7),
 * lakh (10^5) and thousand (10^3) tiers, or the plain amount. The digits of the scaled
 * number (`toFixed`, or the default number-to-string for the plain tier) are not modelled:
 * a label carries the amount, the divisor and the number of fraction digits, and the
 * rendered numeral is supplied by the caller of `Text`.
 */
module Money {

  datatype Tier = Crore | Lakh | Thousand | Units

  const CroreFactor := 10_000_000
  const LakhFactor := 100_000
  const ThousandFactor := 1_000

  /** The tier the `>=` cascade picks. */
  function TierOf(price: int): (t: Tier)
    ensures t == Crore <==> price >= CroreFactor
    ensures t == Lakh <==> LakhFactor <= price < CroreFactor
    ensures t == Thousand <==> ThousandFactor <= price < LakhFactor
    ensures t == Units <==> price < ThousandFactor
  {
    if price >= CroreFactor then Crore
    else if price >= LakhFactor then Lakh
    else if price >= ThousandFactor then Thousand
    else Units
  }

  function Divisor(t: Tier): nat {
    match t
    case Crore => CroreFactor
    case Lakh => LakhFactor
    case Thousand => ThousandFactor
    case Units => 1
  }

  /** The unit text after the number: note the space before `Cr` and `L` but not before `K`. */
  function UnitText(t: Tier): string {
    match t
    case Crore => " Cr"
    case Lakh => " L"
    case Thousand => "K"
    case Units => ""
  }

  /**
   * A price label: `₹`, then `amount / Divisor(tier)` written with `digits`
   * (`DefaultDigits`: the number's default rendering), then the unit, then `suffix`.
   */
  datatype PriceLabel = PriceLabel(tier: Tier, amount: int, digits: Digits, suffix: string)

  /** `toFixed(n)`, or the default number-to-string conversion. */
  datatype Digits = DefaultDigits | FixedDigits(n: nat)

  /** Tiers below crore keep the scaled number between 1 and 100. */
  lemma TierScale(price: int)
    ensures var t := TierOf(price);
      && (t != Units ==> Divisor(t) <= price)
      && (t in {Lakh, Thousand} ==> price < 100 * Divisor(t))
      && (t == Units ==> price < ThousandFactor)
  {
  }

  /** The label text for a given rendering `numeral` of the scaled number. */
  function Text(p: PriceLabel, numeral: string): (s: string)
    ensures |s| >= 1 && s[0] == '₹'
    ensures var tail := UnitText(p.tier) + p.suffix;
      |tail| < |s| && s[|s| - |tail|..] == tail
  {
    "₹" + numeral + UnitText(p.tier) + p.suffix
  }
}

=== FILE: photos_step.dfy ===
/**
 * The photo list of the listing form: a batch of chosen files is checked and uploaded and
 * the returned URLs are appended; single photos can be removed or moved. The network upload
 * is not modelled: the caller supplies what each file's upload yields.
 */
module PhotosStep {
  import opened Wrappers

  const MaxPhotos := 10

  const TooManyError := "Maximum 10 photos allowed."
  const NotImageError := "Only image files are allowed."
  const UploadError := "Upload failed. Please try again."

  /** A chosen file; only its MIME type is looked at before the upload. */
  datatype File = File(mimeType: string)

  /**
   * What one upload yields: the `url` of the JSON body, `null` for a non-2xx response,
   * or an exception (network failure, unreadable body), which rejects the whole batch.
   */
  datatype Upload = Stored(url: string) | NotOk | Threw

  /** The image list (owned by the parent form) and the step's error line. */
  datatype PhotosState = PhotosState(images: seq<string>, error: string)

  predicate IsImage(f: File) {
    "image/" <= f.mimeType
  }

  /** `urls.filter(Boolean)`: the non-empty URLs, in file order. */
  function KeptUrls(results: seq<Upload>): (urls: seq<string>)
    ensures |urls| <= |results|
    ensures forall k :: 0 <= k < |urls| ==> urls[k] != "" && Stored(urls[k]) in results
    ensures |results| == 1 ==> urls == (if results[0].Stored? && results[0].url != "" then [results[0].url] else [])
    ensures (forall k :: 0 <= k < |results| ==> results[k].Stored? && results[k].url != "") ==> |urls| == |results|
  {
    if results == [] then []
    else
      var rest := KeptUrls(results[1..]);
      match results[0]
      case Stored(u) => if u != "" then [u] + rest else rest
      case _ => rest
  }

  /** Kept URLs of a longer batch are those of its parts, one after the other. */
  lemma {:induction false} KeptUrlsAppend(a: seq<Upload>, b: seq<Upload>)
    ensures KeptUrls(a + b) == KeptUrls(a) + KeptUrls(b)
    decreases |a|
  {
    if a == [] {
      assert a + b == b;
    } else {
      assert (a + b)[1..] == a[1..] + b;
      KeptUrlsAppend(a[1..], b);
    }
  }

  /** The files of a batch that are considered: the first ones, as many as there is room for. */
  function Selected(images: seq<string>, files: seq<File>): (sel: seq<File>)
    ensures sel <= files
    ensures |images| >= MaxPhotos ==> sel == []
    ensures |images| < MaxPhotos ==>
      |sel| == if |files| < MaxPhotos - |images| then |files| else MaxPhotos - |images|
  {
    var room := MaxPhotos - |images|;
    if room <= 0 then [] else if |files| <= room then files else files[..room]
  }

  /** The outcomes of the first `n` uploads, in file order. */
  function Outcomes(n: nat, outcome: nat -> Upload): (results: seq<Upload>)
    ensures |results| == n
    ensures forall k :: 0 <= k < n ==> results[k] == outcome(k)
  {
    seq(n, k requires 0 <= k < n => outcome(k))
  }

  /**
   * `handleFiles(files)`. The network is not modelled: `outcome(k)` is what the upload of the
   * `k`-th considered file yields, so every file of a batch has its own outcome.
   */
  function HandleFiles(s: PhotosState, files: Option<seq<File>>, outcome: nat -> Upload): (r: PhotosState)
    ensures files.None? || files.value == [] ==> r == s
    ensures s.images <= r.images
    ensures |s.images| <= MaxPhotos ==> |r.images| <= MaxPhotos
    ensures files.Some? && files.value != [] && |s.images| >= MaxPhotos ==> r == PhotosState(s.images, TooManyError)
    ensures (files.Some? && files.value != [] && |s.images| < MaxPhotos &&
             exists f :: f in Selected(s.images, files.value) && !IsImage(f))
            ==> r == PhotosState(s.images, NotImageError)
    ensures r.images != s.images ==> r.error == "" && forall k :: |s.images| <= k < |r.images| ==> r.images[k] != ""
    ensures r.error in {s.error, "", TooManyError, NotImageError, UploadError}
  {
    match files
    case None => s
    case Some(fs) =>
      if |fs| == 0 then s
      else if MaxPhotos - |s.images| <= 0 then PhotosState(s.images, TooManyError)
      else
        var selected := Selected(s.images, fs);
        if exists f :: f in selected && !IsImage(f) then PhotosState(s.images, NotImageError)
        else
          var results := Outcomes(|selected|, outcome);
          if Threw in results then PhotosState(s.images, UploadError)
          else PhotosState(s.images + KeptUrls(results), "")
  }

  /** One upload that throws rejects the batch: the list is kept and the failure message is set. */
  lemma ThrownUploadKeepsList(s: PhotosState, files: seq<File>, outcome: nat -> Upload, k: nat)
    requires |s.images| < MaxPhotos
    requires forall f :: f in Selected(s.images, files) ==> IsImage(f)
    requires k < |Selected(s.images, files)| && outcome(k) == Threw
    ensures HandleFiles(s, Some(files), outcome) == PhotosState(s.images, UploadError)
  {
    var results := Outcomes(|Selected(s.images, files)|, outcome);
    assert results[k] == Threw;
  }

  /** Without a thrown upload, the new list is the old one followed by the non-empty URLs, in file order. */
  lemma UploadedBatchAppended(s: PhotosState, files: seq<File>, outcome: nat -> Upload)
    requires files != [] && |s.images| < MaxPhotos
    requires forall f :: f in Selected(s.images, files) ==> IsImage(f)
    requires forall k :: 0 <= k < |Selected(s.images, files)| ==> outcome(k) != Threw
    ensures HandleFiles(s, Some(files), outcome) ==
      PhotosState(s.images + KeptUrls(Outcomes(|Selected(s.images, files)|, outcome)), "")
  {
    var results := Outcomes(|Selected(s.images, files)|, outcome);
    assert Threw !in results by {
      forall k | 0 <= k < |results| ensures results[k] != Threw { }
    }
  }

  /** Files beyond the free room are ignored, even when they are not images. */
  lemma FilesBeyondRoomIgnored(s: PhotosState, files: seq<File>, outcome: nat -> Upload)
    requires |s.images| < MaxPhotos && MaxPhotos - |s.images| < |files|
    ensures HandleFiles(s, Some(files), outcome) == HandleFiles(s, Some(files[..MaxPhotos - |s.images|]), outcome)
  {
  }

  /** A batch of images whose uploads all succeed is appended whole, each URL at its file's position. */
  lemma AllStoredAppendsAll(s: PhotosState, files: seq<File>, outcome: nat -> Upload)
    requires files != [] && |s.images| + |files| <= MaxPhotos
    requires forall f :: f in files ==> IsImage(f)
    requires forall k :: 0 <= k < |files| ==> outcome(k).Stored? && outcome(k).url != ""
    ensures var r := HandleFiles(s, Some(files), outcome);
      && r.error == ""
      && |r.images| == |s.images| + |files|
      && forall k :: 0 <= k < |files| ==> r.images[|s.images| + k] == outcome(k).url
  {
    var results := Outcomes(|files|, outcome);
    assert Threw !in results by {
      forall k | 0 <= k < |results| ensures results[k] != Threw { }
    }
    AllStoredKept(results);
  }

  /** Two image files stored under different URLs both appear, in file order. */
  lemma TwoStoredImages(a: File, b: File, urlA: string, urlB: string)
    requires IsImage(a) && IsImage(b) && urlA != "" && urlB != ""
    ensures var outcome := (k: nat) => if k == 0 then Stored(urlA) else Stored(urlB);
      HandleFiles(PhotosState([], ""), Some([a, b]), outcome) == PhotosState([urlA, urlB], "")
  {
    var outcome := (k: nat) => if k == 0 then Stored(urlA) else Stored(urlB);
    AllStoredAppendsAll(PhotosState([], ""), [a, b], outcome);
  }

  lemma {:induction false} AllStoredKept(results: seq<Upload>)
    requires forall k :: 0 <= k < |results| ==> results[k].Stored? && results[k].url != ""
    ensures KeptUrls(results) == seq(|results|, k requires 0 <= k < |results| => results[k].url)
    decreases |results|
  {
    if results != [] {
      AllStoredKept(results[1..]);
    }
  }

  // ---------------------------------------------------------------------------

  /** `removeImage(index)`: `images.filter((_, i) => i !== index)`. */
  function RemoveImage(images: seq<string>, index: int): (r: seq<string>)
    ensures 0 <= index < |images| ==> r == images[..index] + images[index + 1..]
    ensures !(0 <= index < |images|) ==> r == images
    decreases |images|
  {
    if images == [] then []
    else (if index == 0 then [] else [images[0]]) + RemoveImage(images[1..], index - 1)
  }

  /** The position `Array.prototype.splice` starts at: a negative start counts from the end; both ends clamp. */
  function SpliceStart(start: int, len: nat): (p: nat)
    ensures p <= len
    ensures 0 <= start <= len ==> p == start
    ensures start < 0 ==> p == (if len + start < 0 then 0 else len + start)
    ensures start > len ==> p == len
  {
    if start < 0 then (if len + start < 0 then 0 else len + start)
    else if start > len then len
    else start
  }

  /**
   * `moveImage(from, to)`: take the photo out at `from`, then insert it at `to` of the
   * shortened list. `from` must name a photo; otherwise the source inserts `undefined`.
   */
  function MoveImage(images: seq<string>, from: int, to: int): (r: seq<string>)
    requires |images| > 0 && from < |images|
    ensures |r| == |images|
    ensures multiset(r) == multiset(images)
    ensures r[SpliceStart(to, |images| - 1)] == images[SpliceStart(from, |images|)]
    ensures var f, t := SpliceStart(from, |images|), SpliceStart(to, |images| - 1);
      r[..t] + r[t + 1..] == images[..f] + images[f + 1..]
  {
    var f := SpliceStart(from, |images|);
    var rest := images[..f] + images[f + 1..];
    var t := SpliceStart(to, |rest|);
    var r := rest[..t] + [images[f]] + rest[t..];
    assert |rest| == |images| - 1 && r[t] == images[f];
    ReinsertKeepsMultiset(images, f, t);
    assert r[..t] == rest[..t] && r[t + 1..] == rest[t..];
    r
  }

  /** Taking the photo at `f` out and putting it back at `t` keeps every photo. */
  lemma ReinsertKeepsMultiset(images: seq<string>, f: nat, t: nat)
    requires f < |images| && t < |images|
    ensures var rest := images[..f] + images[f + 1..];
      multiset(rest[..t] + [images[f]] + rest[t..]) == multiset(images)
  {
    var moved := images[f];
    var rest := images[..f] + images[f + 1..];
    assert images == images[..f] + [moved] + images[f + 1..];
    assert rest == rest[..t] + rest[t..];
    assert multiset(images) == multiset(images[..f]) + multiset{moved} + multiset(images[f + 1..]);
    assert multiset(rest) == multiset(images[..f]) + multiset(images[f + 1..]);
    assert multiset(rest) == multiset(rest[..t]) + multiset(rest[t..]);
    var r := rest[..t] + [moved] + rest[t..];
    assert multiset(r) == multiset(rest[..t]) + multiset{moved} + multiset(rest[t..]);
    assert multiset(r) == multiset(rest) + multiset{moved};
  }

  /** The "move right" button swaps a photo with its right neighbour. */
  lemma MoveRightSwaps(images: seq<string>, i: nat)
    requires i + 1 < |images|
    ensures MoveImage(images, i, i + 1) == images[..i] + [images[i + 1], images[i]] + images[i + 2..]
  {
  }

  /** The "move left" button swaps a photo with its left neighbour. */
  lemma MoveLeftSwaps(images: seq<string>, i: nat)
    requires 0 < i < |images|
    ensures MoveImage(images, i, i - 1) == images[..i - 1] + [images[i], images[i - 1]] + images[i + 1..]
  {
  }

  /** Moving a photo back to where it came from restores the list. */
  lemma MoveRoundTrip(images: seq<string>, from: nat, to: nat)
    requires from < |images| && to < |images|
    ensures MoveImage(MoveImage(images, from, to), to, from) == images
  {
    var moved := images[from];
    var rest := images[..from] + images[from + 1..];
    var once := MoveImage(images, from, to);
    assert once == rest[..to] + [moved] + rest[to..];
    assert once[..to] + once[to + 1..] == rest;
    assert once[to] == moved;
    assert rest[..from] + [moved] + rest[from..] == images;
  }
}

=== FILE: pricing_step.dfy ===
/** The pricing step: a monthly rent or a total sale price, shown back as a rupee label. */
module PricingStep {
  import opened Wrappers
  import opened Listing
  import Money

  const RentSuggestions: seq<int> := [5000, 8000, 10000, 15000, 20000, 25000, 30000, 50000]
  const SaleSuggestions: seq<int> := [1500000, 2500000, 3500000, 5000000, 7500000, 10000000]

  /** `formatINR`: one fraction digit in every scaled tier, including thousands. */
  function FormatInr(value: int): (p: Money.PriceLabel)
    ensures p.tier == Money.TierOf(value) && p.amount == value && p.suffix == ""
    ensures p.tier == Money.Units <==> p.digits == Money.DefaultDigits
    ensures p.tier != Money.Units ==> p.digits == Money.FixedDigits(1)
  {
    var t := Money.TierOf(value);
    Money.PriceLabel(t, value, if t == Money.Units then Money.DefaultDigits else Money.FixedDigits(1), "")
  }

  /** The quick-pick prices offered for a status. */
  function Suggestions(status: Status): (s: seq<int>)
    ensures status == Rent ==> s == RentSuggestions
    ensures status == Sale ==> s == SaleSuggestions
  {
    if status == Rent then RentSuggestions else SaleSuggestions
  }

  /** `touched && (!price || price <= 0)`; on integers `!price` is `price == 0`, already covered by `price <= 0`. */
  function ShowError(touched: bool, price: int): (shown: bool)
    ensures !touched ==> !shown
    ensures touched && price == 0 ==> shown
    ensures touched ==> (shown <==> FormattedLine(price, Rent).None?) && (shown <==> FormattedLine(price, Sale).None?)
  {
    touched && price <= 0
  }

  /** The line under the input: the formatted price with ` / month` or ` total`, only for a positive price. */
  function FormattedLine(price: int, status: Status): (line: Option<Money.PriceLabel>)
    ensures line.Some? <==> price > 0
    ensures line.Some? ==> line.value.tier == Money.TierOf(price)
    ensures line.Some? ==> line.value.amount == price && line.value.digits == FormatInr(price).digits
    ensures line.Some? ==> (line.value.suffix == " / month" <==> status == Rent)
    ensures line.Some? ==> (line.value.suffix == " total" <==> status == Sale)
  {
    if price > 0 then Some(FormatInr(price).(suffix := if status == Rent then " / month" else " total")) else None
  }

  datatype Edit = PriceTyped(parsed: Parsed) | SuggestionPicked(value: int)

  /** The stored price after an edit: what parses (non-numbers become 0), or the picked suggestion. */
  function ApplyEdit(e: Edit): (price: int)
    ensures e.PriceTyped? ==> price == NumberOrZero(e.parsed)
    ensures e.PriceTyped? && e.parsed.NotANumber? ==> price == 0
    ensures e.SuggestionPicked? ==> price == e.value
  {
    match e
    case PriceTyped(p) => NumberOrZero(p)
    case SuggestionPicked(v) => v
  }

  /** Every suggestion is positive, so picking one clears the error and shows the formatted line. */
  lemma PickedSuggestionIsValid(status: Status, k: nat, touched: bool)
    requires k < |Suggestions(status)|
    ensures var price := ApplyEdit(SuggestionPicked(Suggestions(status)[k]));
      !ShowError(touched, price) && FormattedLine(price, status).Some?
  {
  }

  /** Rent suggestions all read in thousands; sale suggestions in lakhs, the largest in crores. */
  lemma SuggestionTiers()
    ensures forall v :: v in RentSuggestions ==> Money.TierOf(v) == Money.Thousand
    ensures forall v :: v in SaleSuggestions ==> Money.TierOf(v) in {Money.Lakh, Money.Crore}
  {
  }
}

=== FILE: security_step.dfy ===
/**
 * The security step: a catalogue of security features, some of which must be disclosed
 * to tenants. Choosing one of those raises a disclosure banner; "None of the above"
 * clears the selection.
 */
module SecurityStep {
  import Selection

  datatype Item = Item(id: string, warning: bool)

  const Catalogue: seq<Item> := [
    Item("cctv_exterior", false),
    Item("cctv_interior", true),
    Item("security_guard", false),
    Item("intercom", false),
    Item("smart_lock", false),
    Item("fire_alarm", false),
    Item("fire_extinguisher", false),
    Item("weapon", true)
  ]

  /** `items.filter((i) => i.warning && selected.includes(i.id))`. */
  function WarningsOf(items: seq<Item>, selected: seq<string>): (w: seq<Item>)
    ensures forall it :: it in w <==> it in items && it.warning && it.id in selected
    ensures |w| <= |items|
  {
    if items == [] then []
    else
      var rest := WarningsOf(items[1..], selected);
      if items[0].warning && items[0].id in selected then [items[0]] + rest else rest
  }

  /** The flagged items the current selection includes, in catalogue order. */
  function Warnings(selected: seq<string>): seq<Item> {
    WarningsOf(Catalogue, selected)
  }

  /** `warnings.length > 0`: the disclosure banner. */
  function BannerShown(selected: seq<string>): (shown: bool)
    ensures shown ==> |selected| > 0
    ensures shown ==> |Warnings(selected)| > 0 && Warnings(selected)[0].warning && Warnings(selected)[0].id in selected
  {
    var w := Warnings(selected);
    assert |w| > 0 ==> w[0] in w;
    |w| > 0
  }

  /** The banner is shown exactly when interior CCTV or weapons are among the chosen ids. */
  lemma BannerIffDisclosable(selected: seq<string>)
    ensures BannerShown(selected) <==> "cctv_interior" in selected || "weapon" in selected
    ensures forall it :: it in Warnings(selected) ==> it.id in {"cctv_interior", "weapon"}
  {
    WarningsInCatalogueOrder(selected);
  }

  /** Exactly the chosen flagged items, interior CCTV before weapons as in the catalogue. */
  lemma WarningsInCatalogueOrder(selected: seq<string>)
    ensures Warnings(selected) ==
      (if "cctv_interior" in selected then [Item("cctv_interior", true)] else []) +
      (if "weapon" in selected then [Item("weapon", true)] else [])
  {
    var c := Catalogue;
    var before, between := c[..1], c[2..7];
    assert c == before + [c[1]] + between + [c[7]];
    WarningsOfUnflagged(before, selected);
    WarningsOfUnflagged(between, selected);
    WarningsOfAppend(before + [c[1]] + between, [c[7]], selected);
    WarningsOfAppend(before + [c[1]], between, selected);
    WarningsOfAppend(before, [c[1]], selected);
  }

  /** Filtering distributes over concatenation. */
  lemma {:induction false} WarningsOfAppend(a: seq<Item>, b: seq<Item>, selected: seq<string>)
    ensures WarningsOf(a + b, selected) == WarningsOf(a, selected) + WarningsOf(b, selected)
    decreases |a|
  {
    if a == [] {
      assert a + b == b;
    } else {
      assert (a + b)[1..] == a[1..] + b;
      WarningsOfAppend(a[1..], b, selected);
    }
  }

  /** Items without a warning never reach the banner. */
  lemma {:induction false} WarningsOfUnflagged(items: seq<Item>, selected: seq<string>)
    requires forall k :: 0 <= k < |items| ==> !items[k].warning
    ensures WarningsOf(items, selected) == []
    decreases |items|
  {
    if items != [] {
      WarningsOfUnflagged(items[1..], selected);
    }
  }

  /** "None of the above": `onChange([])`. */
  function ChooseNone(selected: seq<string>): (r: seq<string>)
    ensures forall id :: id !in r
  {
    []
  }

  /** The "None of the above" button is highlighted exactly when nothing is chosen. */
  function NoneHighlighted(selected: seq<string>): (highlighted: bool)
    ensures highlighted <==> forall id :: id !in selected
    ensures highlighted ==> !BannerShown(selected)
  {
    assert |selected| > 0 ==> selected[0] in selected;
    |selected| == 0
  }

  /** After "None of the above" the button is highlighted and no banner is shown. */
  lemma NoneClearsBanner(selected: seq<string>)
    ensures NoneHighlighted(ChooseNone(selected))
    ensures !BannerShown(ChooseNone(selected))
  {
    BannerIffDisclosable([]);
  }

  /** Toggling a flagged item on raises the banner; toggling it off clears it unless the other one is chosen. */
  lemma ToggleWarningItem(selected: seq<string>, id: string)
    requires id in {"cctv_interior", "weapon"}
    ensures id !in selected ==> BannerShown(Selection.Toggle(selected, id))
    ensures id in selected ==>
      (BannerShown(Selection.Toggle(selected, id)) <==>
        (if id == "weapon" then "cctv_interior" else "weapon") in selected)
  {
    BannerIffDisclosable(selected);
    BannerIffDisclosable(Selection.Toggle(selected, id));
  }
}

=== FILE: selection.dfy ===
/**
 * The multi-select lists of the amenities and security steps: a `string[]` of chosen ids
 * that a click toggles. A chosen id is removed with `filter`, so every copy of it goes;
 * an unchosen id is appended at the end.
 */
module Selection {

  predicate NoDuplicates(xs: seq<string>) {
    forall i, j :: 0 <= i < j < |xs| ==> xs[i] != xs[j]
  }

  /** `xs.filter((a) => a !== x)`. */
  function RemoveAll(xs: seq<string>, x: string): (r: seq<string>)
    ensures x !in r
    ensures forall y :: y != x ==> (y in r <==> y in xs)
    ensures x !in xs ==> r == xs
    ensures |r| <= |xs|
    ensures NoDuplicates(xs) ==> NoDuplicates(r)
    ensures |xs| == 1 ==> r == (if xs[0] == x then [] else xs)
    decreases |xs|
  {
    if xs == [] then []
    else if xs[0] == x then RemoveAll(xs[1..], x)
    else
      var rest := RemoveAll(xs[1..], x);
      assert NoDuplicates(xs) ==> xs[0] !in xs[1..];
      [xs[0]] + rest
  }

  /** The `toggle(id)` handler. */
  function Toggle(selected: seq<string>, id: string): (r: seq<string>)
    ensures id in r <==> id !in selected
    ensures forall y :: y != id ==> (y in r <==> y in selected)
    ensures id !in selected ==> r == selected + [id]
    ensures id in selected ==> r == RemoveAll(selected, id)
    ensures NoDuplicates(selected) ==> NoDuplicates(r)
  {
    if id in selected then RemoveAll(selected, id) else selected + [id]
  }

  /** Toggling an unchosen id twice gives back the original list. */
  lemma ToggleTwiceRestores(selected: seq<string>, id: string)
    requires id !in selected
    ensures Toggle(Toggle(selected, id), id) == selected
  {
    var once := selected + [id];
    assert once[..|selected|] == selected;
    RemoveAllAppended(selected, id);
  }

  /** Filtering distributes over concatenation: with the one-element case, the kept ids keep their order. */
  lemma {:induction false} RemoveAllAppend(a: seq<string>, b: seq<string>, x: string)
    ensures RemoveAll(a + b, x) == RemoveAll(a, x) + RemoveAll(b, x)
    decreases |a|
  {
    if a == [] {
      assert a + b == b;
    } else {
      assert (a + b)[1..] == a[1..] + b;
      RemoveAllAppend(a[1..], b, x);
    }
  }

  lemma {:induction false} RemoveAllAppended(xs: seq<string>, x: string)
    requires x !in xs
    ensures RemoveAll(xs + [x], x) == xs
    decreases |xs|
  {
    if xs == [] {
      assert [] + [x] == [x];
    } else {
      assert (xs + [x])[1..] == xs[1..] + [x];
      RemoveAllAppended(xs[1..], x);
    }
  }
}

=== FILE: text.dfy ===
/**
 * String operations the forms and the route guard rely on, stated over `seq<char>`.
 * Only ASCII letters take part in case mapping; whitespace follows the ECMAScript
 * WhiteSpace and LineTerminator productions, which is the set that both `\s` in a
 * regular expression and `String.prototype.trim` use.
 */
module Text {

  /** ECMAScript whitespace: WhiteSpace plus LineTerminator code points. */
  predicate IsJsSpace(c: char) {
    || c == '\t' || c == '\n' || c == '\U{000B}' || c == '\U{000C}' || c == '\r'
    || c == ' ' || c == '\U{00A0}' || c == '\U{1680}'
    || ('\U{2000}' <= c <= '\U{200A}')
    || c == '\U{2028}' || c == '\U{2029}' || c == '\U{202F}' || c == '\U{205F}'
    || c == '\U{3000}' || c == '\U{FEFF}'
  }

  /** `\d` in an ECMAScript regular expression without the `u` flag. */
  predicate IsDigit(c: char) {
    '0' <= c <= '9'
  }

  predicate AllDigits(s: string) {
    forall i :: 0 <= i < |s| ==> IsDigit(s[i])
  }

  predicate IsUpperAscii(c: char) {
    'A' <= c <= 'Z'
  }

  predicate IsLowerAscii(c: char) {
    'a' <= c <= 'z'
  }

  function LowerChar(c: char): char {
    if IsUpperAscii(c) then (c as int + 32) as char else c
  }

  function UpperChar(c: char): char {
    if IsLowerAscii(c) then (c as int - 32) as char else c
  }

  /** `toLowerCase`, restricted to ASCII letters. */
  function ToLower(s: string): (r: string)
    ensures |r| == |s|
    ensures forall i :: 0 <= i < |r| ==> !IsUpperAscii(r[i])
    ensures forall i :: 0 <= i < |s| && !IsUpperAscii(s[i]) ==> r[i] == s[i]
    ensures forall i :: 0 <= i < |s| && IsUpperAscii(s[i]) ==> r[i] as int == s[i] as int + 32
  {
    seq(|s|, i requires 0 <= i < |s| => LowerChar(s[i]))
  }

  /** `toUpperCase`, restricted to ASCII letters. */
  function ToUpper(s: string): (r: string)
    ensures |r| == |s|
    ensures forall i :: 0 <= i < |r| ==> !IsLowerAscii(r[i])
    ensures forall i :: 0 <= i < |s| && !IsLowerAscii(s[i]) ==> r[i] == s[i]
    ensures forall i :: 0 <= i < |s| && IsLowerAscii(s[i]) ==> r[i] as int == s[i] as int - 32
  {
    seq(|s|, i requires 0 <= i < |s| => UpperChar(s[i]))
  }

  /** A string with no upper-case ASCII letter is its own lower-case form. */
  lemma ToLowerFixesLowered(s: string)
    requires forall i :: 0 <= i < |s| ==> !IsUpperAscii(s[i])
    ensures ToLower(s) == s
  {
  }

  /** `s.replace(/\D/g, '')`: the digits of `s`, in order. */
  function KeepDigits(s: string): (r: string)
    ensures AllDigits(r)
    ensures |r| <= |s|
    ensures AllDigits(s) ==> r == s
    ensures |s| == 1 ==> r == (if IsDigit(s[0]) then s else [])
    decreases |s|
  {
    if s == [] then []
    else if IsDigit(s[0]) then [s[0]] + KeepDigits(s[1..])
    else KeepDigits(s[1..])
  }

  /** Filtering digits distributes over concatenation, so typing more text only extends the kept digits. */
  lemma {:induction false} KeepDigitsAppend(a: string, b: string)
    ensures KeepDigits(a + b) == KeepDigits(a) + KeepDigits(b)
    decreases |a|
  {
    if a == [] {
      assert a + b == b;
    } else {
      assert (a + b)[1..] == a[1..] + b;
      KeepDigitsAppend(a[1..], b);
    }
  }

  /** `s.slice(0, n)`. */
  function Take(s: string, n: nat): (r: string)
    ensures |r| <= n && r <= s
    ensures |s| <= n ==> r == s
    ensures n <= |s| ==> |r| == n
  {
    if |s| <= n then s else s[..n]
  }

  /** `s.replace(/\D/g, '').slice(0, n)`: the digit-only, length-capped input of the phone and pincode fields. */
  function SanitizeDigits(s: string, n: nat): (r: string)
    ensures AllDigits(r) && |r| <= n
    ensures r <= KeepDigits(s)
    ensures |r| == if |KeepDigits(s)| < n then |KeepDigits(s)| else n
    ensures AllDigits(s) && |s| <= n ==> r == s
  {
    Take(KeepDigits(s), n)
  }

  /** Sanitising an already sanitised value changes nothing. */
  lemma SanitizeDigitsIdempotent(s: string, n: nat)
    ensures SanitizeDigits(SanitizeDigits(s, n), n) == SanitizeDigits(s, n)
  {
  }

  /** Leading whitespace removed. */
  function TrimStart(s: string): (r: string)
    ensures |r| <= |s| && r == s[|s| - |r|..]
    ensures forall k :: 0 <= k < |s| - |r| ==> IsJsSpace(s[k])
    ensures r != [] ==> !IsJsSpace(r[0])
    decreases |s|
  {
    if s != [] && IsJsSpace(s[0]) then TrimStart(s[1..]) else s
  }

  /** Trailing whitespace removed. */
  function TrimEnd(s: string): (r: string)
    ensures |r| <= |s| && r == s[..|r|]
    ensures forall k :: |r| <= k < |s| ==> IsJsSpace(s[k])
    ensures r != [] ==> !IsJsSpace(r[|r| - 1])
    decreases |s|
  {
    if s != [] && IsJsSpace(s[|s| - 1]) then TrimEnd(s[..|s| - 1]) else s
  }

  predicate AllSpace(s: string) {
    forall k :: 0 <= k < |s| ==> IsJsSpace(s[k])
  }

  /** `String.prototype.trim`. */
  function Trim(s: string): (r: string)
    ensures |r| <= |s|
    ensures r == [] <==> AllSpace(s)
    ensures r != [] ==> !IsJsSpace(r[0]) && !IsJsSpace(r[|r| - 1])
    ensures s == [] || (!IsJsSpace(s[0]) && !IsJsSpace(s[|s| - 1])) ==> r == s
    ensures exists i, j :: 0 <= i <= j <= |s| && r == s[i..j] && AllSpace(s[..i]) && AllSpace(s[j..])
  {
    var t := TrimStart(s);
    var r := TrimEnd(t);
    TrimCutsOuterSpace(s, t, r);
    r
  }

  /**
   * Trimming keeps a slice of the input whose left and right remainders are all whitespace:
   * `t` is `s` without a whitespace prefix, and `r` is `t` without a whitespace suffix.
   */
  lemma TrimCutsOuterSpace(s: string, t: string, r: string)
    requires |t| <= |s| && t == s[|s| - |t|..]
    requires forall k :: 0 <= k < |s| - |t| ==> IsJsSpace(s[k])
    requires |r| <= |t| && r == t[..|r|]
    requires forall k :: |r| <= k < |t| ==> IsJsSpace(t[k])
    ensures var i := |s| - |t|; var j := i + |r|;
      && 0 <= i <= j <= |s| && r == s[i..j] && AllSpace(s[..i]) && AllSpace(s[j..])
  {
    var i := |s| - |t|;
    var j := i + |r|;
    assert t == s[i..];
    assert r == t[..|r|];
    assert r == s[i..j] by {
      assert forall k :: 0 <= k < |r| ==> r[k] == t[k] == s[i + k];
    }
    var front := s[..i];
    forall k | 0 <= k < |front| ensures IsJsSpace(front[k]) {
      assert front[k] == s[k];
    }
    var rest := s[j..];
    forall k | 0 <= k < |rest| ensures IsJsSpace(rest[k]) {
      assert rest[k] == t[|r| + k];
    }
  }

  /** A character outside the Basic Multilingual Plane, which UTF-16 stores as two code units. */
  predicate IsAstral(c: char) {
    c as int >= 0x1_0000
  }

  /** `s.length` in JavaScript: the number of UTF-16 code units. */
  function Utf16Length(s: string): (n: nat)
    ensures n >= |s|
    ensures |s| == 1 ==> n == (if IsAstral(s[0]) then 2 else 1)
    decreases |s|
  {
    if s == [] then 0 else (if IsAstral(s[0]) then 2 else 1) + Utf16Length(s[1..])
  }

  /** Code units add up over concatenation, so with the one-character case every astral character counts two. */
  lemma {:induction false} Utf16LengthAppend(a: string, b: string)
    ensures Utf16Length(a + b) == Utf16Length(a) + Utf16Length(b)
    decreases |a|
  {
    if a == [] {
      assert a + b == b;
    } else {
      assert (a + b)[1..] == a[1..] + b;
      Utf16LengthAppend(a[1..], b);
    }
  }

  /** Without astral characters, counting characters and counting UTF-16 code units agree. */
  lemma {:induction false} Utf16LengthWithoutAstral(s: string)
    requires forall k :: 0 <= k < |s| ==> !IsAstral(s[k])
    ensures Utf16Length(s) == |s|
    decreases |s|
  {
    if s != [] {
      Utf16LengthWithoutAstral(s[1..]);
    }
  }

  /** One astral character already makes the UTF-16 count exceed the character count. */
  lemma {:induction false} Utf16LengthWithAstral(s: string, k: nat)
    requires k < |s| && IsAstral(s[k])
    ensures Utf16Length(s) > |s|
    decreases |s|
  {
    if k > 0 {
      Utf16LengthWithAstral(s[1..], k - 1);
    }
  }
}

=== FILE: title_step.dfy ===
/** The title step: a title of 10 to 80 characters, with ready-made suggestions. */
module TitleStep {
  import Text
  import CharCount

  const MinChars := 10
  const MaxChars := 80

  const Suggestions: seq<string> := [
    "Spacious 2 BHK in prime location",
    "Modern flat with parking & amenities",
    "Fully furnished studio near metro",
    "Family home with garden & terrace",
    "Luxury apartment with city view",
    "Affordable 1 BHK near IT hub",
    "Independent house with 24/7 security",
    "Well-ventilated flat in gated society"
  ]

  /** Typing: the input is cut to its first 80 characters. */
  function TypeTitle(raw: string): (t: string)
    ensures |t| <= MaxChars && t <= raw
    ensures |raw| <= MaxChars ==> t == raw
    ensures |raw| >= MaxChars ==> |t| == MaxChars
  {
    Text.Take(raw, MaxChars)
  }

  /** What the step shows for a title. */
  datatype View = View(hint: CharCount.Hint, previewShown: bool, counterRed: bool)

  function ViewOf(title: string, touched: bool): (v: View)
    ensures v.hint.TooShortError? <==> touched && |title| < MinChars
    ensures v.hint.LooksGood? <==> |title| >= MinChars
    ensures v.previewShown <==> |title| >= MinChars
    ensures v.hint.MoreNeeded? ==> v.hint.needed == MinChars - |title|
    ensures v.counterRed <==> |title| >= MaxChars
  {
    View(CharCount.HintFor(|title|, MinChars, touched), |title| >= MinChars, |title| >= MaxChars)
  }

  /** Every suggestion is a title of acceptable length. */
  lemma SuggestionsFit()
    ensures forall s :: s in Suggestions ==> MinChars <= |s| <= MaxChars
  {
  }

  /** Picking a suggestion (`onChange(s)`) gives a title with preview and no error, whether or not the field was left. */
  lemma PickedSuggestionLooksGood(k: nat, touched: bool)
    requires k < |Suggestions|
    ensures var v := ViewOf(Suggestions[k], touched); v.previewShown && !v.hint.TooShortError?
  {
    SuggestionsFit();
    assert Suggestions[k] in Suggestions;
  }

  /** A typed title never exceeds the limit, so the counter turns red exactly when it is full. */
  lemma TypedCounterRedWhenFull(raw: string, touched: bool)
    ensures ViewOf(TypeTitle(raw), touched).counterRed <==> |raw| >= MaxChars
  {
  }
}

=== FILE: touched.dfy ===
/**
 * The per-form `touched` record (`Record<string, boolean>`, initially `{}`) that decides
 * when a field's error may be shown. A blur handler spreads the old record and sets one key.
 */
module Touched {

  type TouchedMap = map<string, bool>

  const Untouched: TouchedMap := map[]

  /** `touched[field]` read as a condition: an absent key is `undefined`, which is falsy. */
  predicate IsTouched(touched: TouchedMap, field: string) {
    field in touched && touched[field]
  }

  /** `handleBlur(field)`: `{ ...prev, [field]: true }`. */
  function Blur(touched: TouchedMap, field: string): (r: TouchedMap)
    ensures IsTouched(r, field)
    ensures forall g :: IsTouched(touched, g) ==> IsTouched(r, g)
    ensures forall g :: g != field ==> (IsTouched(r, g) <==> IsTouched(touched, g))
  {
    touched[field := true]
  }
}

=== FILE: verification_step.dfy ===
/**
 * The owner-verification step: name, phone, email, government id and the terms checkbox.
 * Errors appear only for fields the user has left (blurred) at least once.
 */
module VerificationStep {
  import Text
  import opened Touched

  datatype Data = Data(
    ownerName: string,
    ownerPhone: string,
    ownerEmail: string,
    idType: string,
    idNumber: string,
    agreeToTerms: bool)

  datatype Field = OwnerName | OwnerPhone | OwnerEmail | IdType | IdNumber | AgreeToTerms

  /** The property name a field is recorded under in `touched`. */
  function Key(f: Field): string {
    match f
    case OwnerName => "ownerName"
    case OwnerPhone => "ownerPhone"
    case OwnerEmail => "ownerEmail"
    case IdType => "idType"
    case IdNumber => "idNumber"
    case AgreeToTerms => "agreeToTerms"
  }

  /** The id documents offered, in button order. */
  datatype IdKind = Aadhaar | Pan | Passport | DrivingLicense | VoterId

  function IdKey(k: IdKind): string {
    match k
    case Aadhaar => "aadhaar"
    case Pan => "pan"
    case Passport => "passport"
    case DrivingLicense => "driving_license"
    case VoterId => "voter_id"
  }

  const PhoneLength := 10

  /** `!data[field]`: the empty string, or an unticked box. */
  predicate IsEmpty(d: Data, f: Field) {
    match f
    case OwnerName => d.ownerName == ""
    case OwnerPhone => d.ownerPhone == ""
    case OwnerEmail => d.ownerEmail == ""
    case IdType => d.idType == ""
    case IdNumber => d.idNumber == ""
    case AgreeToTerms => !d.agreeToTerms
  }

  /** `isInvalid(field)`: left at least once and still empty. */
  function IsInvalid(touched: TouchedMap, d: Data, f: Field): (flagged: bool)
    ensures flagged ==> IsTouched(touched, Key(f))
    ensures f == AgreeToTerms ==> (flagged <==> IsTouched(touched, "agreeToTerms") && !d.agreeToTerms)
    ensures f == OwnerName ==> (flagged <==> IsTouched(touched, "ownerName") && |d.ownerName| == 0)
    ensures f == IdNumber ==> (flagged <==> IsTouched(touched, "idNumber") && |d.idNumber| == 0)
  {
    IsTouched(touched, Key(f)) && IsEmpty(d, f)
  }

  // ---------------------------------------------------------------------------
  // Phone: /^\d{10}$/

  predicate IsTenDigits(s: string) {
    |s| == PhoneLength && Text.AllDigits(s)
  }

  /** A phone left empty or with anything but ten digits; an empty phone is flagged by this check too. */
  function PhoneFlagged(touched: TouchedMap, d: Data): (flagged: bool)
    ensures flagged ==> IsTouched(touched, "ownerPhone")
    ensures IsInvalid(touched, d, OwnerPhone) ==> flagged
    ensures IsTouched(touched, "ownerPhone") && |d.ownerPhone| != PhoneLength ==> flagged
    ensures IsTouched(touched, "ownerPhone") && !Text.AllDigits(d.ownerPhone) ==> flagged
    ensures d.ownerPhone == SanitizePhone(d.ownerPhone) && |Text.KeepDigits(d.ownerPhone)| >= PhoneLength ==> !flagged
  {
    IsTouched(touched, "ownerPhone") && !IsTenDigits(d.ownerPhone)
  }

  /** The phone input keeps the first ten digits typed, dropping everything else. */
  function SanitizePhone(raw: string): (p: string)
    ensures Text.AllDigits(p) && |p| <= PhoneLength
    ensures p <= Text.KeepDigits(raw)
    ensures |p| == if |Text.KeepDigits(raw)| < PhoneLength then |Text.KeepDigits(raw)| else PhoneLength
    ensures IsTenDigits(p) <==> |Text.KeepDigits(raw)| >= PhoneLength
  {
    Text.SanitizeDigits(raw, PhoneLength)
  }

  // ---------------------------------------------------------------------------
  // Email: /^[^\s@]+@[^\s@]+\.[^\s@]+$/

  /** `[^\s@]`. */
  predicate Plain(c: char) {
    c != '@' && !Text.IsJsSpace(c)
  }

  predicate AllPlain(s: string) {
    forall k :: 0 <= k < |s| ==> Plain(s[k])
  }

  /** The pattern read as a split of `s` into local part, `@`, domain, `.`, and last label. */
  ghost predicate EmailSplit(s: string, i: int, j: int) {
    && 0 < i && i + 1 < j && j + 1 < |s|
    && s[i] == '@' && s[j] == '.'
    && AllPlain(s[..i]) && AllPlain(s[i + 1..j]) && AllPlain(s[j + 1..])
  }

  ghost predicate MatchesEmailPattern(s: string) {
    exists i, j :: EmailSplit(s, i, j)
  }

  /**
   * The check by positions: one `@`, not first, every other character neither `@` nor
   * whitespace, and a `.` with at least one character on each side between it and the
   * `@` and the end.
   */
  predicate EmailShaped(s: string) {
    exists i | 0 < i < |s| ::
      && s[i] == '@'
      && (forall m | 0 <= m < |s| && m != i :: Plain(s[m]))
      && (exists j | i + 1 < j < |s| - 1 :: s[j] == '.')
  }

  lemma EmailShapedIffPattern(s: string)
    ensures EmailShaped(s) <==> MatchesEmailPattern(s)
  {
    if EmailShaped(s) {
      ShapedMatchesPattern(s);
    }
    if MatchesEmailPattern(s) {
      var i, j :| EmailSplit(s, i, j);
      SplitIsShaped(s, i, j);
    }
  }

  /** The position check yields a split the pattern accepts. */
  lemma ShapedMatchesPattern(s: string)
    requires EmailShaped(s)
    ensures MatchesEmailPattern(s)
  {
    var i :| 0 < i < |s| && s[i] == '@' && (forall m | 0 <= m < |s| && m != i :: Plain(s[m]))
      && (exists j | i + 1 < j < |s| - 1 :: s[j] == '.');
    var j :| i + 1 < j < |s| - 1 && s[j] == '.';
    var local, domain, last := s[..i], s[i + 1..j], s[j + 1..];
    assert AllPlain(local) by {
      forall k | 0 <= k < |local| ensures Plain(local[k]) { assert local[k] == s[k]; }
    }
    assert AllPlain(domain) by {
      forall k | 0 <= k < |domain| ensures Plain(domain[k]) { assert domain[k] == s[i + 1 + k]; }
    }
    assert AllPlain(last) by {
      forall k | 0 <= k < |last| ensures Plain(last[k]) { assert last[k] == s[j + 1 + k]; }
    }
    assert EmailSplit(s, i, j);
  }

  /** A split the pattern accepts passes the position check. */
  lemma SplitIsShaped(s: string, i: int, j: int)
    requires EmailSplit(s, i, j)
    ensures EmailShaped(s)
  {
    forall m | 0 <= m < |s| && m != i ensures Plain(s[m]) {
      if m < i {
        assert s[m] == s[..i][m];
      } else if m < j {
        assert s[m] == s[i + 1..j][m - i - 1];
      } else if m > j {
        assert s[m] == s[j + 1..][m - j - 1];
      }
    }
    assert s[j] == '.';
  }

  /** Once left, the email is flagged exactly when it does not match the pattern; an empty one is flagged too. */
  function EmailFlagged(touched: TouchedMap, d: Data): (flagged: bool)
    ensures flagged ==> IsTouched(touched, "ownerEmail")
    ensures IsTouched(touched, "ownerEmail") ==> (flagged <==> !MatchesEmailPattern(d.ownerEmail))
    ensures IsInvalid(touched, d, OwnerEmail) ==> flagged
  {
    EmailShapedIffPattern(d.ownerEmail);
    IsTouched(touched, "ownerEmail") && !EmailShaped(d.ownerEmail)
  }

  /** The terms error line, which needs `agreeToTerms` to be touched. */
  function TermsErrorShown(touched: TouchedMap, d: Data): (shown: bool)
    ensures shown <==> IsInvalid(touched, d, AgreeToTerms)
    ensures touched == Untouched ==> !shown
  {
    IsTouched(touched, "agreeToTerms") && !d.agreeToTerms
  }

  /** The id-number input is rendered only once an id type is chosen. */
  function IdNumberShown(d: Data): (shown: bool)
    ensures forall k :: d.idType == IdKey(k) ==> shown
    ensures d.idType == "" ==> !shown
  {
    d.idType != ""
  }

  // ---------------------------------------------------------------------------
  // Events

  /** What the user can do on this step; `...Left` is the field's blur. */
  datatype Event =
    | NameTyped(text: string)
    | PhoneTyped(text: string)
    | EmailTyped(text: string)
    | IdTypeChosen(kind: IdKind)
    | IdNumberTyped(text: string)
    | TermsTicked(checked: bool)
    | NameLeft
    | PhoneLeft
    | EmailLeft
    | IdNumberLeft

  datatype State = State(data: Data, touched: TouchedMap)

  /**
   * One event. Edits merge one field into the form data, as the parent's partial update
   * does; the id-number input does not exist, so cannot fire, while no id type is chosen.
   */
  function Step(s: State, e: Event): (r: State)
    ensures forall g :: IsTouched(s.touched, g) ==> IsTouched(r.touched, g)
    ensures !IsTouched(s.touched, "agreeToTerms") ==> !IsTouched(r.touched, "agreeToTerms")
    ensures e.PhoneTyped? ==> Text.AllDigits(r.data.ownerPhone) && |r.data.ownerPhone| <= PhoneLength
    ensures e.IdNumberTyped? && IdNumberShown(s.data) ==>
      forall k :: 0 <= k < |r.data.idNumber| ==> !Text.IsLowerAscii(r.data.idNumber[k])
    ensures e.IdTypeChosen? ==> IdNumberShown(r.data)
    // each edit writes its own field and nothing else
    ensures e.NameTyped? ==> r == s.(data := s.data.(ownerName := e.text))
    ensures e.PhoneTyped? ==> r == s.(data := s.data.(ownerPhone := SanitizePhone(e.text)))
    ensures e.EmailTyped? ==> r == s.(data := s.data.(ownerEmail := e.text))
    ensures e.IdTypeChosen? ==> r == s.(data := s.data.(idType := IdKey(e.kind)))
    ensures e.IdNumberTyped? && IdNumberShown(s.data) ==> r == s.(data := s.data.(idNumber := Text.ToUpper(e.text)))
    ensures e.IdNumberTyped? && !IdNumberShown(s.data) ==> r == s
    ensures e.TermsTicked? ==> r == s.(data := s.data.(agreeToTerms := e.checked))
    // leaving a field marks it and changes no data
    ensures (e.NameLeft? || e.PhoneLeft? || e.EmailLeft? || e.IdNumberLeft?) ==> r.data == s.data
    ensures e.NameLeft? ==> r.touched == Blur(s.touched, Key(OwnerName))
    ensures e.PhoneLeft? ==> r.touched == Blur(s.touched, Key(OwnerPhone))
    ensures e.EmailLeft? ==> r.touched == Blur(s.touched, Key(OwnerEmail))
    ensures e.IdNumberLeft? ==> r.touched == (if IdNumberShown(s.data) then Blur(s.touched, Key(IdNumber)) else s.touched)
  {
    var d := s.data;
    match e
    case NameTyped(t) => s.(data := d.(ownerName := t))
    case PhoneTyped(t) => s.(data := d.(ownerPhone := SanitizePhone(t)))
    case EmailTyped(t) => s.(data := d.(ownerEmail := t))
    case IdTypeChosen(k) => s.(data := d.(idType := IdKey(k)))
    case IdNumberTyped(t) => if IdNumberShown(d) then s.(data := d.(idNumber := Text.ToUpper(t))) else s
    case TermsTicked(b) => s.(data := d.(agreeToTerms := b))
    case NameLeft => s.(touched := Blur(s.touched, Key(OwnerName)))
    case PhoneLeft => s.(touched := Blur(s.touched, Key(OwnerPhone)))
    case EmailLeft => s.(touched := Blur(s.touched, Key(OwnerEmail)))
    case IdNumberLeft => if IdNumberShown(d) then s.(touched := Blur(s.touched, Key(IdNumber))) else s
  }

  function Run(s: State, events: seq<Event>): State
    decreases |events|
  {
    if events == [] then s else Run(Step(s, events[0]), events[1..])
  }

  /** Whatever happens, the touched record only ever gains entries. */
  lemma {:induction false} RunOnlyTouches(s: State, events: seq<Event>, g: string)
    requires IsTouched(s.touched, g)
    ensures IsTouched(Run(s, events).touched, g)
    decreases |events|
  {
    if events != [] {
      RunOnlyTouches(Step(s, events[0]), events[1..], g);
    }
  }

  /**
   * No handler ever blurs `agreeToTerms`, so from a fresh step the terms error is never
   * shown, whatever the user does and whether or not the box is ticked.
   */
  lemma {:induction false} TermsErrorNeverShown(s: State, events: seq<Event>)
    requires !IsTouched(s.touched, "agreeToTerms")
    ensures !TermsErrorShown(Run(s, events).touched, Run(s, events).data)
    decreases |events|
  {
    if events != [] {
      TermsErrorNeverShown(Step(s, events[0]), events[1..]);
    }
  }

  /** After typing into the phone field, it is flagged exactly when it was left before and fewer than ten digits were typed. */
  lemma PhoneFlagAfterTyping(s: State, raw: string)
    ensures PhoneFlagged(Step(s, PhoneTyped(raw)).touched, Step(s, PhoneTyped(raw)).data) <==>
      IsTouched(s.touched, "ownerPhone") && |Text.KeepDigits(raw)| < PhoneLength
  {
  }

  /** A required text field is flagged exactly when it was left and is empty. */
  lemma NameFlagAfterLeaving(s: State)
    ensures IsInvalid(Step(s, NameLeft).touched, s.data, OwnerName) <==> s.data.ownerName == ""
  {
  }
}

=== FILE: wrappers.dfy ===
/** Optional values. `None` stands for JavaScript's `null` / `undefined`. */
module Wrappers {

  datatype Option<+T> = None | Some(value: T) {

    /** The nullish-coalescing operator `x ?? d`. */
    function GetOr(default: T): (r: T)
      ensures Some? ==> r == value
      ensures None? ==> r == default
    {
      match this
      case Some(v) => v
      case None => default
    }
  }
}
